=== FILE: README.md ===
# Work-hours tracker: paid-time engine and clock state machine

A Dafny model of the payroll core of the work-hours tracker (`main.py`):

- **Time arithmetic** (`time_arith.dfy`): 15-minute floor/ceiling rounding and the
  "HH:MM" <-> minutes conversion, with the print/parse round trip proved for every
  integer, negatives included.
- **Paid window** (`paid_window.dfy`): `compute_paid_window`. This covers the overnight
  normalisation, the +-5 minute snap, the cap on unauthorised overtime, rounding
  against the employee and the final clamp. It also returns the six audit flags.
- **Roster** (`roster.dfy`): the shift catalog (A 09:45-19:00, B 10:45-20:00), the
  A/B/OFF day codes of roster creation, and one resolved roster row.
- **Payable minutes and multiplier** (`payable.dfy`): `detect_shift`, the official-shift
  resolution, `effective_break_minutes`, `minutes_paid_between` and
  `multiplier_for_date`. The multiplier is an enum (public holiday / Sunday / normal).
- **Week lookup** (`weeks.dfy`): `get_week_for_today_strict`, over day numbers.
- **Clock** (`clock.dfy`, `clock_machine.dfy`): `decide_clock_time`; clock-in,
  clock-out, the break toggle, the overtime confirmation, the "today" read with its
  day-rollover reset, and the today resync done by a manual entry edit. The last
  file joins them into one transition function and proves the invariants the
  transitions keep and the confirm-then-resubmit protocol.

Representation:
- Times are `int` minutes of the day.
- Dates are `int` day numbers, where day 0 is 1970-01-01, a Thursday. Python's
  `weekday()` is therefore `(d + 3) % 7`.
- A missing or empty punch is `None`.
- "Now" is one integer: the local wall clock in whole seconds. Today's date
  (`today_ymd`), the punch minute (`hhmm_now`) and break timestamps are all derived
  from it. Break start is stored to the second. So flooring `(now - start) / 60`
  gives the same count as Python's floor of the exact elapsed seconds.
- Each clock operation maps a `Store` to an outcome and a new `Store`:
  - the `Store` holds the entries by day and the optional clock-state row;
  - the outcome is `Committed`, `NeedsConfirm(kind, reason, official, real)`,
    `Ignored` or `Failed`.
- A `NeedsConfirm` or `Ignored` answer still keeps the entry that
  `get_or_create_today_entry` created and committed before deciding. That is the
  only change it makes.

Behaviours of the code worth knowing, all modelled as written:
- `min_to_hhmm` does not clamp negative minutes to zero: -1 prints as "-1:59"
  (main.py:1077-1079).
- The fallback to the guessed A/B shift in `minutes_paid_between` fires whenever an
  official end is missing (main.py:1039-1047). That includes every day-off roster row, so day-offs are
  paid like unrostered days (`Payable.DayOffPaidLikeNoRoster`).
- Shift A (09:45-19:00) is 555 minutes long. Punches snapped to both of its ends
  therefore pay 555 minutes less the effective break, i.e. 495 with the statutory
  hour (`Payable.ScenarioSnapBothEnds`).
- `clock_out` reads the state row without a date filter (main.py:2533). A break left running on an
  earlier day is folded into today's entry. An existing row keeps its old `in_time`
  (`ClockMachine.ClockOutKeepsStaleInTime`).

## Model

| member | source | states |
|---|---|---|
| TimeArith.RoundFloor | main.py:929-931 | the result is a 15-minute mark, at most `m` and within one step of it, and the greatest such mark |
| TimeArith.RoundCeil | main.py:933-935 | the result is a 15-minute mark, at least `m` and within one step of it, and the least such mark |
| TimeArith.RoundingIsIdempotent | main.py:929-935 | rounding a rounded value again changes nothing; a value already on a mark is left alone by both |
| TimeArith.HhmmToMin | main.py:1072-1074 | fails with anything but exactly one colon; succeeds iff both sides are integers, giving hours * 60 + minutes with no range check |
| TimeArith.HhmmParseLaw | main.py:1072-1074 | for every text: no colon is rejected, and so is "a:b:t" (two colons or more); "a:b" (colon-free sides) parses iff both sides are integers, to a * 60 + b |
| TimeArith.MinToHhmm | main.py:1072-1079 | `hhmm_to_min(min_to_hhmm(m)) == m` for every integer, negatives included |
| TimeArith.HourPartIsPadded | main.py:1077-1079 | for non-negative minutes the hour part is the hour count in at least two digits |
| TimeArith.PrintedExamples | main.py:1077-1079 | 585 prints as "09:45" and 0 as "00:00": both parts zero-padded |
| TimeArith.NegativeMinutesNotClamped | main.py:1077-1079 | negative minutes print with floor hours and are not clamped: -1 is "-1:59", -61 is "-2:59" |
| TimeArith.MinutePartIsTwoDigits | main.py:1077-1079 | the printed minute part is two digits between 00 and 59, after the one colon |
| PaidWindow.NormaliseOut | main.py:966-968 | an OUT earlier than IN moves to the next day: same clock time, and within one day after IN for valid readings |
| PaidWindow.AlignOfficialOut | main.py:987-991 | the official OUT moves a day on only when it is before an official IN; present exactly when the official OUT is |
| PaidWindow.SnapOrCapIn | main.py:973-984 | IN snaps iff within 5 minutes of the official IN; it is capped iff unauthorised and earlier than official-5; never both |
| PaidWindow.SnapOrCapOut | main.py:986-1001 | OUT snaps iff within 5 minutes of the official OUT; it is capped iff unauthorised and later than official+5; never both |
| PaidWindow.ComputePaidWindow | main.py:937-1021 | no window iff a punch is missing (and then no flags); OUT never before IN. Each flag holds iff its condition does: snapped iff within 5 minutes of the (day-aligned) official time; capped iff unauthorised and beyond it by more than 5; rounded iff not snapped and the snapped/capped/real time is off a 15-minute mark |
| PaidWindow.SnapPrecedenceIn | main.py:970-1008 | a snapped IN is the official IN untouched; an unsnapped IN is the real or capped time rounded up to a mark |
| PaidWindow.SnapPrecedenceOut | main.py:986-1019 | a snapped OUT is the official OUT, lifted only by the clamp; an unsnapped OUT is the real or capped time rounded down, then clamped |
| PaidWindow.UnauthorizedInNeverEarly | main.py:970-1008 | without authorisation the paid IN is never before the official IN |
| PaidWindow.UnauthorizedOutNeverLate | main.py:986-1019 | without authorisation the paid OUT is never after the official OUT unless the clamp empties the window |
| PaidWindow.AuthorizedKeepsRealTimes | main.py:970-1008 | with authorisation nothing is capped and an unsnapped IN is the real IN rounded up |
| PaidWindow.NoOfficialShiftOnlyRounds | main.py:960-1019 | with no official times no snap or cap happens; the window is the real punches rounded, then clamped |
| PaidWindow.PaidWindowIsAFixpoint | main.py:960-1019 | without official times, feeding a computed window back in as the punches reproduces it |
| Roster.StripBounds | main.py:1676 | `strip()` cuts a slice out of the code with only whitespace outside it and (with `Strip`'s own contract) none at its ends, so nothing inside is removed |
| Roster.DecodeDayCode | main.py:1675-1685 | accepted iff the trimmed, upper-cased code is OFF, A or B, and then it gives the catalog row whose canonical code that is |
| Roster.DayCodeRoundTrip | main.py:1677-1683 | each catalog row's code decodes back to that row |
| Roster.DecodeIgnoresCaseAndPadding | main.py:1675-1685 | for every code, decoding it and decoding its trimmed, upper-cased spelling give the same answer |
| Roster.DayCodeIgnoresCaseAndPadding | main.py:1675-1685 | on examples: " off " is the day-off row, "b" is shift B, "C" and "o ff" (an inner space) are rejected |
| Roster.CreateRosterDays | main.py:1640-1685 | rejected for the day count iff there are not seven codes; otherwise day k is start+k with the decoded row, and one bad code rejects all |
| Payable.EffectiveBreak | main.py:1099-1102 | with both punches, the larger of 60 and the recorded break; with either missing, zero |
| Payable.DetectShift | main.py:1082-1088 | shift A iff the clock-in is at or before 10:15, shift B iff after; none without a clock-in |
| Payable.OfficialShift | main.py:1039-1047 | a worked roster row with both ends gives its shift; otherwise (no row, day off, an end missing) the guessed shift |
| Payable.MinutesPaidBetween | main.py:1024-1065 | never negative; 0 with a punch missing; otherwise max(0, span - max(60, break)), hence at most max(0, span - 60) |
| Payable.PaidMinutesUsesPaidWindow | main.py:1049-1053 | the reported window and flags are those of the paid-window rule against the resolved shift |
| Payable.DayOffPaidLikeNoRoster | main.py:1039-1047 | a day-off row is paid exactly as a day with no roster row |
| Payable.OnTimePunchesPayWholeShift | main.py:1024-1065 | punches within tolerance of both ends pay the whole official shift less the effective break |
| Payable.ScenarioSnapBothEnds | main.py:1024-1065 | 09:50 to 19:03 on shift A, unauthorised, pays 09:45-19:00, that is 555 minutes less the break |
| Payable.MultiplierFor | main.py:1213-1231 | public holiday iff the bank-holiday row is paid; otherwise Sunday iff the weekday is 6; otherwise normal |
| Payable.MultiplierPriority | main.py:1213-1231 | a paid holiday wins over any weekday; without holidays the rate repeats weekly; 1970-01-04 is a Sunday |
| Weeks.WeekForToday | main.py:2251-2287 | none iff there are no weeks; else the first week covering today, else the latest started week (last among ties), else the first |
| Clock.DecideClockTime | main.py:1459-1499 | no official time: real, no confirm; within 5 minutes: official; authorised: real; confirm iff unauthorised early IN or late OUT, storing the official time |
| Clock.DecisionIsPaidBoundary | main.py:1459-1499 | the stored punch equals the paid-window snap/cap boundary, and asking to confirm equals being capped |
| Clock.ClockIn | main.py:2419-2486 | no week fails; unconfirmed day off asks; refused day off is ignored; on a worked day it asks iff the day is unanswered, unauthorised and the punch is more than 5 minutes before the official IN, and otherwise commits; non-commits change nothing; a commit stores the snapped/capped IN, clears OUT and the break flag |
| Clock.StoppedBreak | main.py:2533-2536 | stopping a break adds max(0, elapsed whole minutes), so it never lowers the total |
| Clock.ClockOut | main.py:2489-2573 | gating as for IN: on a worked day it asks iff unanswered, unauthorised and more than 5 minutes after the official OUT, otherwise commits; a commit folds a running break into both records, stores the snapped/capped OUT and leaves an existing row's IN as it was |
| Clock.ToggleToday | main.py:2614-2647 | with today's row the running flag flips and the punches stay. Starting records now and adds nothing. Stopping clears the start and adds max(0, elapsed minutes) to both records. Only today's break total changes in the entries |
| Clock.ClockBreakAsWritten | main.py:2576-2647 | no week fails; a row left from another day makes the toggle fail with nothing but the entry creation kept; with no row, a new one mirrors today's entry with a break running from now; with today's row the break is toggled, and a running break's minutes go into both records |
| Clock.ClockBreak | main.py:2576-2647 | with a week, the toggle always commits and leaves today's row. A missing or stale row is replaced by one mirroring today's entry, with a break running from now. With today's row it toggles the break exactly as written |
| Clock.ConfirmExtra | main.py:2400-2416 | with a week it commits, sets the asked and authorised flags of that day's entry (created if needed) and keeps its punches, break and multiplier; other days and the state row are untouched |
| Clock.ClockToday | main.py:2321-2397 | a missing or stale row is reset to today's entry with no break running; a current one takes in/out/break from the entry and keeps break tracking |
| Clock.UpsertEntry | main.py:1911-1997 | writes the edited fields and the day's multiplier, keeps the confirmation flags; resyncs in/out/break of today's row, never its break tracking |
| ClockMachine.NextKeepsBreakTracked | main.py:2321-2647 | every clock command, and a manual edit, keeps "a running break has a start" |
| ClockMachine.ClockTodaySyncs | main.py:2343-2391 | after reading today the state row is today's and mirrors today's entry |
| ClockMachine.NextKeepsSynced | main.py:2321-2647 | once in line, every clock command of the same day keeps the state row mirroring today's entry |
| ClockMachine.EditKeepsSynced | main.py:1971-1997 | a manual edit keeps the row mirroring today's entry, and an edit of today leaves the running break and its start as they were |
| ClockMachine.BreakNeverDecreases | main.py:2533-2647 | from a store whose state row is today's and mirrors today's entry, no command but a manual edit lowers today's break total in either record |
| ClockMachine.EarlyInConfirmThenResubmit | main.py:2400-2460 | after an early-IN request and the user's answer, the resubmitted punch commits: the official time if refused, the real time if authorised |
| ClockMachine.DayOffRefusalIgnoresPunches | main.py:2433-2445 | after refusing overtime on a day off, clock-in and clock-out are ignored and change nothing |
| ClockMachine.ConfirmChangesOnlyFlags | main.py:2410-2413 | confirming changes only the two flags of that day's entry, whether or not it existed before |
| ClockMachine.ClockOutStopsRunningBreak | main.py:2533-2547 | a break from 13:00 still running at a 13:20 clock-out adds 20 minutes to both records |
| ClockMachine.ClockInDropsRunningBreak | main.py:2468-2483 | clock-in clears a running break without adding its minutes |
| ClockMachine.ClockOutKeepsStaleInTime | main.py:2533-2566 | clock-out over yesterday's row keeps yesterday's IN, so the row stops mirroring today's entry |
| ClockMachine.StaleClockOutLowersBreak | main.py:2533-2547 | a break running from 23:59 on yesterday's row, stopped by a 00:01 clock-out, replaces today's 30-minute break with 2 |
| ClockMachine.StaleRowBreakToggle | main.py:2588-2612 | with yesterday's row, the toggle as written fails; the corrected one starts today's break |
| ClockMachine.EarlyInScenario | main.py:2448-2460 | a 09:20 clock-in against 09:45 asks; once refused it stores 09:45 |

## Findings

| source | as written | input that shows it | evidently intended | confidence | as-written member | corrected member |
|---|---|---|---|---|---|---|
| main.py:2588-2612 | a missing state row for today is created with a plain INSERT, but `clock_state.user_id` is the primary key | a break toggle while the user's row still holds an earlier day: the INSERT collides and the request fails | replace the stale row with today's and start the break, as the other clock operations' upserts do | not executed; high that the INSERT collides, medium on the intended fix | Clock.ClockBreakAsWritten | Clock.ClockBreak |

The machine (`ClockMachine.Next`) uses the corrected `Clock.ClockBreak`.
`ClockMachine.StaleRowBreakToggle` shows both halves on one input.

## Left out

- SQL storage, schema and migrations: entries and the clock-state row are in-memory
  records.
- Week ids: entries are keyed by day alone, one row per day. In the system an entry
  is looked up by user, week and date (`get_or_create_today_entry`), every clock
  operation passes the current week, and nothing makes (user, date) unique. So a
  date can have one row per week, and the week decides which row is read and
  written. The three members below rely on one row per day.
- Clock.ConfirmExtra: for a date outside the current week the system sets the
  flags on a new row under the current week and leaves that date's existing row
  alone; the model updates the existing row.
- Clock.UpsertEntry: an edit made through another week writes a row the clock
  never reads, yet still copies the edit into the state row; the model has the
  one row per day, which the clock then reads.
- Clock.UpsertEntry: the edit's `time_in` and `time_out` are stored as given, with
  no check that they are HH:MM text (main.py:429-435, 1933-1966). A malformed one
  makes every later `compute_paid_window` or `detect_shift` on that row raise in
  `hhmm_to_min` (main.py:963-964, 1085). Punches here are `Option<int>` minutes,
  so malformed stored text, and the failures it causes, cannot arise in the model.
- ClockMachine.EditKeepsSynced: holds for the one row per day only; after an edit
  through another week the system's state row no longer mirrors the entry the
  clock reads.
- HTTP routing, JSON shaping, authentication, e-mail, uploads: not part of the
  payroll core.
- Wall-clock reads: "now" is a parameter. The model treats `date.today()` and
  `datetime.now()` as one instant.
- Pay in euros, `PUBLIC_HOLIDAY_MULT` and `round(pay, 2)`: floating point. The model
  stops at payable minutes and the multiplier enum.
- Per-user locking: each operation is one atomic transition.
- `roster_for_date`: the SQL lookup (the latest roster covering the date) is a
  parameter, `Option<RosterDay>`.
- The bank-holiday lookup of `multiplier_for_date` is a parameter, the set of days
  with a paid row. The exception fallback to 1.0 comes from date parsing, which day
  numbers do not need.
- Entry note, `bh_paid` and `updated_at` columns, and the meta echo fields
  (`official_in`, `official_out`, `authorized`, the HH:MM strings of the paid
  window): not used by any rule.
- TimeArith.HhmmToMin: Python's `int()` also accepts surrounding whitespace,
  underscores and non-ASCII digits; the model accepts only an optional sign and
  ASCII digits.
- Roster.DecodeDayCode: `strip()` and `upper()` are modelled on ASCII only
  (all ASCII whitespace, 0x1C-0x1F included). Non-ASCII whitespace and Unicode
  upper-casing are left out.
- ClockMachine.BreakNeverDecreases: holds only from a store whose state row is
  today's. `clock_out` folds a break still running from an earlier day using that
  row's total, which can lower today's (`ClockMachine.StaleClockOutLowersBreak`).
- Weeks.WeekForToday: `get_week_for_today_strict` skips weeks whose `start_date`
  does not parse (and may still fall back to the first week). Day numbers always
  parse, so that path is not modelled.
- Roster creation's duplicate check, week creation and the rows' insertion: storage
  plumbing. Only the per-day decoding is modelled.
- The legacy calculators `minutes_between`, `calc_paid_times_authorized` and
  `calc_paid_times_roster`, and the arithmetic inside `day_details`: not on the main
  payroll path.

=== FILE: clock.dfy ===
/** The daily clock state machine (main.py, "CLOCK (IN / OUT / BREAK) + EXTRA
    CONFIRM"): the per-user clock state row, the work-day entries it mirrors,
    and the operations clock-in, clock-out, break toggle, overtime
    confirmation, the "today" read that resets a stale day, and the today
    resync done by a manual entry edit.

    Each operation is one atomic transition from a `Store` to an outcome and a
    new `Store`. "Now" is one number, the local wall clock in whole seconds
    since 1970-01-01 00:00: today's day number, the "HH:MM" punch and the
    break timestamps are all read from it. */
module Clock {
  import opened Wrappers
  import opened TimeArith
  import opened Roster
  import opened PaidWindow
  import opened Payable

  const SecondsPerDay: int := 86400
  const SecondsPerMinute: int := 60

  /** `today_ymd()` as a day number. */
  function DayOf(now: int): int {
    now / SecondsPerDay
  }

  /** `hhmm_now()`: the minute of the day. */
  function MinuteOfDay(now: int): (m: int)
    ensures IsMinuteOfDay(m)
    ensures DayOf(now) * SecondsPerDay + m * SecondsPerMinute <= now < DayOf(now) * SecondsPerDay + (m + 1) * SecondsPerMinute
  {
    (now % SecondsPerDay) / SecondsPerMinute
  }

  /** Whole minutes from `start` to `now`, floored as Python's `//` floors. The
      break start is stored to the second, so flooring the exact elapsed time
      gives the same count. */
  function ElapsedMinutes(start: int, now: int): (r: int)
    ensures r * SecondsPerMinute <= now - start < (r + 1) * SecondsPerMinute
  {
    (now - start) / SecondsPerMinute
  }

  // ---------------------------------------------------------------------
  // decide_clock_time
  // ---------------------------------------------------------------------

  datatype Kind = In | Out

  datatype Decision = Decision(storeTime: int, needsConfirm: bool)

  /** The time a punch is stored as, and whether it must first be confirmed as
      overtime: only an unauthorised early IN or late OUT beyond tolerance asks,
      and then the official time is stored. */
  function DecideClockTime(kind: Kind, punch: int, official: Option<int>, authorized: bool): (d: Decision)
    ensures official.None? ==> d == Decision(punch, false)
    ensures official.Some? && WithinTolerance(punch, official.value) ==> d == Decision(official.value, false)
    ensures official.Some? && authorized && !WithinTolerance(punch, official.value) ==> d == Decision(punch, false)
    ensures d.needsConfirm <==>
      official.Some? && !authorized &&
      ((kind == In && punch < official.value - Tolerance) || (kind == Out && punch > official.value + Tolerance))
    ensures d.needsConfirm ==> d.storeTime == official.value
    ensures d.storeTime == punch || (official.Some? && d.storeTime == official.value)
  {
    if official.None? then Decision(punch, false)
    else
      var off := official.value;
      var diff := punch - off;
      if Abs(diff) <= Tolerance then Decision(off, false)
      else if authorized then Decision(punch, false)
      else
        match kind
        case In => if diff < -Tolerance then Decision(off, true) else Decision(punch, false)
        case Out => if diff > Tolerance then Decision(off, true) else Decision(punch, false)
  }

  /** The stored punch is the paid boundary before rounding: the IN decision
      snaps and caps exactly as the paid-window IN rule, the OUT decision as the
      OUT rule, and asking for confirmation is exactly being capped. */
  lemma DecisionIsPaidBoundary(punch: int, official: Option<int>, authorized: bool)
    ensures var d := DecideClockTime(In, punch, official, authorized);
      var b := SnapOrCapIn(punch, official, authorized);
      d.storeTime == b.value && d.needsConfirm == b.capped
    ensures var d := DecideClockTime(Out, punch, official, authorized);
      var b := SnapOrCapOut(punch, official, authorized);
      d.storeTime == b.value && d.needsConfirm == b.capped
  {
  }

  // ---------------------------------------------------------------------
  // Records
  // ---------------------------------------------------------------------

  /** A work-day entry: punches as minutes of the day, break total, the frozen
      multiplier and the two overtime-confirmation flags. */
  datatype Entry = Entry(
    timeIn: Option<int>, timeOut: Option<int>, breakMinutes: int,
    multiplier: Multiplier, extraChecked: bool, extraAuthorized: bool)

  /** The singleton clock state row. `breakStart` is a wall-clock second. */
  datatype ClockState = ClockState(
    workDate: int, inTime: Option<int>, outTime: Option<int>,
    breakRunning: bool, breakStart: Option<int>, breakMinutes: int)

  /** The user's entries by day number, and the clock state row if any. */
  datatype Store = Store(entries: map<int, Entry>, state: Option<ClockState>)

  /** What an operation reads besides the store: the clock, whether the user
      has any week (the week lookup then always finds one), today's roster row
      and the days with a paid bank-holiday row. */
  datatype Env = Env(now: int, hasWeek: bool, roster: Option<RosterDay>, paidHolidays: set<int>)

  datatype Reason = DayOff | EarlyIn | LateOut

  /** The `needs_extra_confirm` answer: nothing is clocked until the user
      confirms and punches again. */
  datatype Pending = Pending(kind: Kind, reason: Reason, official: Option<int>, punch: int)

  datatype ClockError = NoActiveWeek | WeekNotFound | StateRowConflict

  datatype Outcome = Committed | NeedsConfirm(pending: Pending) | Ignored | Failed(error: ClockError)

  datatype Transition = Transition(outcome: Outcome, store: Store)

  function Today(env: Env): int {
    DayOf(env.now)
  }

  function Punch(env: Env): int {
    MinuteOfDay(env.now)
  }

  predicate IsDayOff(env: Env) {
    env.roster.Some? && env.roster.value.dayOff
  }

  function OfficialIn(env: Env): Option<int> {
    if env.roster.Some? then env.roster.value.shiftIn else None
  }

  function OfficialOut(env: Env): Option<int> {
    if env.roster.Some? then env.roster.value.shiftOut else None
  }

  /** `get_or_create_today_entry`: the stored entry for day `d`, or a blank one
      carrying the day's multiplier. */
  function EntryFor(s: Store, d: int, paidHolidays: set<int>): Entry
  {
    if d in s.entries then s.entries[d]
    else Entry(None, None, 0, MultiplierForDate(paidHolidays, d), false, false)
  }

  /** The store once the entry for `d` exists (the creation is committed on its own). */
  function Touch(s: Store, d: int, paidHolidays: set<int>): (t: Store)
    ensures d in t.entries && t.state == s.state
    ensures d in s.entries ==> t == s
  {
    s.(entries := s.entries[d := EntryFor(s, d, paidHolidays)])
  }

  // ---------------------------------------------------------------------
  // clock_in
  // ---------------------------------------------------------------------

  function ClockIn(s: Store, env: Env): (r: Transition)
    ensures !env.hasWeek ==> r == Transition(Failed(NoActiveWeek), s)
    ensures env.hasWeek ==> !r.outcome.Failed?
    // nothing but the lazily created entry changes unless the punch commits
    ensures env.hasWeek && !r.outcome.Committed? ==> r.store == Touch(s, Today(env), env.paidHolidays)
    ensures var e := EntryFor(s, Today(env), env.paidHolidays);
      && (env.hasWeek && IsDayOff(env) && !e.extraChecked ==>
            r.outcome == NeedsConfirm(Pending(In, DayOff, None, Punch(env))))
      && (env.hasWeek && IsDayOff(env) && e.extraChecked && !e.extraAuthorized ==> r.outcome == Ignored)
      && (r.outcome == Ignored ==> IsDayOff(env) && e.extraChecked && !e.extraAuthorized)
      && (r.outcome.NeedsConfirm? ==> !e.extraChecked)
      && (r.outcome.NeedsConfirm? && r.outcome.pending.reason == EarlyIn ==>
            !IsDayOff(env) && !e.extraAuthorized && OfficialIn(env).Some?
            && Punch(env) < OfficialIn(env).value - Tolerance)
    // on a worked day the punch asks exactly when it is an unanswered,
    // unauthorised IN earlier than tolerance allows; otherwise it commits
    ensures var e := EntryFor(s, Today(env), env.paidHolidays);
      env.hasWeek && !IsDayOff(env) ==>
        (r.outcome.NeedsConfirm? <==>
          !e.extraChecked && !e.extraAuthorized && OfficialIn(env).Some?
          && Punch(env) < OfficialIn(env).value - Tolerance)
    ensures r.outcome.NeedsConfirm? && !IsDayOff(env) ==>
      r.outcome.pending == Pending(In, EarlyIn, OfficialIn(env), Punch(env))
    ensures var e := EntryFor(s, Today(env), env.paidHolidays);
      (env.hasWeek && (!IsDayOff(env) || (e.extraChecked && e.extraAuthorized))
       && !r.outcome.NeedsConfirm?) ==> r.outcome == Committed
    // a committed punch: IN is the snapped/capped time, OUT cleared, break stopped without folding
    ensures r.outcome.Committed? ==>
      var today := Today(env);
      var e := EntryFor(s, today, env.paidHolidays);
      var stored := SnapOrCapIn(Punch(env), OfficialIn(env), e.extraAuthorized).value;
      var e' := e.(timeIn := Some(stored), timeOut := None,
                   multiplier := MultiplierForDate(env.paidHolidays, today));
      && r.store.entries == s.entries[today := e']
      && r.store.state == Some(ClockState(today, Some(stored), None, false, None, e.breakMinutes))
      && (!e.extraAuthorized && OfficialIn(env).Some? ==> stored >= OfficialIn(env).value)
  {
    if !env.hasWeek then Transition(Failed(NoActiveWeek), s)
    else
      var today := Today(env);
      var punch := Punch(env);
      var e := EntryFor(s, today, env.paidHolidays);
      var touched := Touch(s, today, env.paidHolidays);
      if IsDayOff(env) && !e.extraChecked then
        Transition(NeedsConfirm(Pending(In, DayOff, None, punch)), touched)
      else if IsDayOff(env) && !e.extraAuthorized then
        Transition(Ignored, touched)
      else
        var official := OfficialIn(env);
        var d := DecideClockTime(In, punch, official, e.extraAuthorized);
        if d.needsConfirm && !e.extraChecked then
          Transition(NeedsConfirm(Pending(In, EarlyIn, official, punch)), touched)
        else
          DecisionIsPaidBoundary(punch, official, e.extraAuthorized);
          var e' := e.(timeIn := Some(d.storeTime), timeOut := None,
                       multiplier := MultiplierForDate(env.paidHolidays, today));
          // the upsert rewrites every column of the state row
          var st := ClockState(today, Some(d.storeTime), None, false, None, e.breakMinutes);
          Transition(Committed, Store(s.entries[today := e'], Some(st)))
  }

  // ---------------------------------------------------------------------
  // clock_out
  // ---------------------------------------------------------------------

  /** The state row has a running break with a recorded start. */
  predicate BreakToFold(st: Option<ClockState>) {
    st.Some? && st.value.breakRunning && st.value.breakStart.Some?
  }

  /** The break total once a running break is stopped at `now`. */
  function StoppedBreak(st: ClockState, now: int): (b: int)
    requires st.breakStart.Some?
    ensures b >= st.breakMinutes
    ensures b - st.breakMinutes == Max(0, ElapsedMinutes(st.breakStart.value, now))
  {
    st.breakMinutes + Max(0, ElapsedMinutes(st.breakStart.value, now))
  }

  function ClockOut(s: Store, env: Env): (r: Transition)
    ensures !env.hasWeek ==> r == Transition(Failed(NoActiveWeek), s)
    ensures env.hasWeek ==> !r.outcome.Failed?
    ensures env.hasWeek && !r.outcome.Committed? ==> r.store == Touch(s, Today(env), env.paidHolidays)
    ensures var e := EntryFor(s, Today(env), env.paidHolidays);
      && (env.hasWeek && IsDayOff(env) && !e.extraChecked ==>
            r.outcome == NeedsConfirm(Pending(Out, DayOff, None, Punch(env))))
      && (env.hasWeek && IsDayOff(env) && e.extraChecked && !e.extraAuthorized ==> r.outcome == Ignored)
      && (r.outcome == Ignored ==> IsDayOff(env) && e.extraChecked && !e.extraAuthorized)
      && (r.outcome.NeedsConfirm? ==> !e.extraChecked)
      && (r.outcome.NeedsConfirm? && r.outcome.pending.reason == LateOut ==>
            !IsDayOff(env) && !e.extraAuthorized && OfficialOut(env).Some?
            && Punch(env) > OfficialOut(env).value + Tolerance)
    // on a worked day the punch asks exactly when it is an unanswered,
    // unauthorised OUT later than tolerance allows; otherwise it commits
    ensures var e := EntryFor(s, Today(env), env.paidHolidays);
      env.hasWeek && !IsDayOff(env) ==>
        (r.outcome.NeedsConfirm? <==>
          !e.extraChecked && !e.extraAuthorized && OfficialOut(env).Some?
          && Punch(env) > OfficialOut(env).value + Tolerance)
    ensures r.outcome.NeedsConfirm? && !IsDayOff(env) ==>
      r.outcome.pending == Pending(Out, LateOut, OfficialOut(env), Punch(env))
    ensures var e := EntryFor(s, Today(env), env.paidHolidays);
      (env.hasWeek && (!IsDayOff(env) || (e.extraChecked && e.extraAuthorized))
       && !r.outcome.NeedsConfirm?) ==> r.outcome == Committed
    // a committed punch: a running break is folded first, then OUT is stored
    ensures r.outcome.Committed? ==>
      var today := Today(env);
      var e := EntryFor(s, today, env.paidHolidays);
      var stored := SnapOrCapOut(Punch(env), OfficialOut(env), e.extraAuthorized).value;
      var br := if BreakToFold(s.state) then StoppedBreak(s.state.value, env.now) else e.breakMinutes;
      && r.store.entries == s.entries[today := e.(timeOut := Some(stored), breakMinutes := br,
                                                   multiplier := MultiplierForDate(env.paidHolidays, today))]
      && r.store.state.Some?
      && var st := r.store.state.value;
      && st.workDate == today && st.outTime == Some(stored) && st.breakMinutes == br
      && !st.breakRunning && st.breakStart.None?
      // the upsert does not touch in_time of an existing row
      && st.inTime == (if s.state.Some? then s.state.value.inTime else None)
      && (!e.extraAuthorized && OfficialOut(env).Some? ==> stored <= OfficialOut(env).value)
  {
    if !env.hasWeek then Transition(Failed(NoActiveWeek), s)
    else
      var today := Today(env);
      var punch := Punch(env);
      var e := EntryFor(s, today, env.paidHolidays);
      var touched := Touch(s, today, env.paidHolidays);
      if IsDayOff(env) && !e.extraChecked then
        Transition(NeedsConfirm(Pending(Out, DayOff, None, punch)), touched)
      else if IsDayOff(env) && !e.extraAuthorized then
        Transition(Ignored, touched)
      else
        var official := OfficialOut(env);
        var d := DecideClockTime(Out, punch, official, e.extraAuthorized);
        if d.needsConfirm && !e.extraChecked then
          Transition(NeedsConfirm(Pending(Out, LateOut, official, punch)), touched)
        else
          DecisionIsPaidBoundary(punch, official, e.extraAuthorized);
          // the state row is read without a date filter
          var e1 := if BreakToFold(s.state) then e.(breakMinutes := StoppedBreak(s.state.value, env.now)) else e;
          var e2 := e1.(timeOut := Some(d.storeTime), multiplier := MultiplierForDate(env.paidHolidays, today));
          var st := match s.state
            case None => ClockState(today, None, Some(d.storeTime), false, None, e1.breakMinutes)
            case Some(prev) =>
              prev.(workDate := today, outTime := Some(d.storeTime), breakRunning := false,
                   breakStart := None, breakMinutes := e1.breakMinutes);
          Transition(Committed, Store(s.entries[today := e2], Some(st)))
  }

  // ---------------------------------------------------------------------
  // clock_break
  // ---------------------------------------------------------------------

  /** The state row exists but belongs to another day. */
  predicate StaleState(s: Store, today: int) {
    s.state.Some? && s.state.value.workDate != today
  }

  /** The break toggle with a state row for today: start a break, stop a
      running one and fold its minutes into both records, or clear a running
      flag that has no start. */
  function ToggleToday(s: Store, env: Env, st: ClockState): (r: Transition)
    requires st.workDate == Today(env)
    ensures r.outcome == Committed && r.store.state.Some? && Today(env) in r.store.entries
    // the flag flips; the row keeps its day and punches
    ensures var st' := r.store.state.value;
      && st'.breakRunning == !st.breakRunning
      && st'.workDate == st.workDate && st'.inTime == st.inTime && st'.outTime == st.outTime
    // only today's break total may change among the entries
    ensures var today := Today(env);
      var e := EntryFor(s, today, env.paidHolidays);
      && r.store.entries.Keys == s.entries.Keys + {today}
      && (forall k :: k in s.entries && k != today ==> r.store.entries[k] == s.entries[k])
      && r.store.entries[today] == e.(breakMinutes := r.store.entries[today].breakMinutes)
    // starting records now and adds nothing
    ensures !st.breakRunning ==>
      && r.store.state.value.breakStart == Some(env.now)
      && r.store.state.value.breakMinutes == st.breakMinutes
      && r.store.entries[Today(env)] == EntryFor(s, Today(env), env.paidHolidays)
    // stopping clears the start and adds the elapsed minutes to both records
    ensures st.breakRunning ==> r.store.state.value.breakStart.None?
    ensures st.breakRunning && st.breakStart.Some? ==>
      && r.store.state.value.breakMinutes == st.breakMinutes + Max(0, ElapsedMinutes(st.breakStart.value, env.now))
      && r.store.entries[Today(env)].breakMinutes == r.store.state.value.breakMinutes
    ensures st.breakRunning && st.breakStart.None? ==>
      && r.store.state.value.breakMinutes == st.breakMinutes
      && r.store.entries[Today(env)] == EntryFor(s, Today(env), env.paidHolidays)
  {
    var today := Today(env);
    var e := EntryFor(s, today, env.paidHolidays);
    if !st.breakRunning then
      Transition(Committed, Store(s.entries[today := e], Some(st.(breakRunning := true, breakStart := Some(env.now)))))
    else if st.breakStart.None? then
      Transition(Committed, Store(s.entries[today := e], Some(st.(breakRunning := false, breakStart := None))))
    else
      var b := StoppedBreak(st, env.now);
      Transition(Committed, Store(s.entries[today := e.(breakMinutes := b)],
                                  Some(st.(breakRunning := false, breakStart := None, breakMinutes := b))))
  }

  /** A new state row for today mirroring the entry, with a break already running. */
  function StartFresh(s: Store, env: Env): Transition
  {
    var today := Today(env);
    var e := EntryFor(s, today, env.paidHolidays);
    Transition(Committed, Store(s.entries[today := e],
                                Some(ClockState(today, e.timeIn, e.timeOut, true, Some(env.now), e.breakMinutes))))
  }

  /** `clock_break` as written: with no row for today it INSERTs a new row, and
      a row left from another day makes that INSERT collide with the user's
      existing row, so the request fails (only the entry creation stays). */
  function ClockBreakAsWritten(s: Store, env: Env): (r: Transition)
    ensures !env.hasWeek ==> r == Transition(Failed(NoActiveWeek), s)
    ensures env.hasWeek && StaleState(s, Today(env)) ==>
      r == Transition(Failed(StateRowConflict), Touch(s, Today(env), env.paidHolidays))
    ensures env.hasWeek && !StaleState(s, Today(env)) ==> r.outcome == Committed
    // no row yet: a new one mirroring today's entry, with a break running from now
    ensures env.hasWeek && s.state.None? ==>
      var e := EntryFor(s, Today(env), env.paidHolidays);
      r.store == Store(s.entries[Today(env) := e],
                       Some(ClockState(Today(env), e.timeIn, e.timeOut, true, Some(env.now), e.breakMinutes)))
    // today's row: the break is toggled, a running one folded into both records
    ensures env.hasWeek && s.state.Some? && s.state.value.workDate == Today(env) ==>
      && r == ToggleToday(s, env, s.state.value)
      && r.store.state.value.breakRunning == !s.state.value.breakRunning
      && (BreakToFold(s.state) ==>
            r.store.entries[Today(env)].breakMinutes == r.store.state.value.breakMinutes
              == StoppedBreak(s.state.value, env.now))
  {
    if !env.hasWeek then Transition(Failed(NoActiveWeek), s)
    else if s.state.None? then StartFresh(s, env)
    else if s.state.value.workDate != Today(env) then
      Transition(Failed(StateRowConflict), Touch(s, Today(env), env.paidHolidays))
    else ToggleToday(s, env, s.state.value)
  }

  /** `clock_break` with the insert turned into an upsert, as the other clock
      operations do: a row from another day is replaced by today's, which
      starts a break. */
  function ClockBreak(s: Store, env: Env): (r: Transition)
    ensures !env.hasWeek ==> r == Transition(Failed(NoActiveWeek), s)
    ensures env.hasWeek ==> r.outcome == Committed
    ensures env.hasWeek ==> r.store.state.Some? && r.store.state.value.workDate == Today(env)
    ensures env.hasWeek && (s.state.None? || StaleState(s, Today(env))) ==>
      var e := EntryFor(s, Today(env), env.paidHolidays);
      var st := r.store.state.value;
      && st.breakRunning && st.breakStart == Some(env.now)
      && st.inTime == e.timeIn && st.outTime == e.timeOut && st.breakMinutes == e.breakMinutes
      && r.store.entries == s.entries[Today(env) := e]
    ensures env.hasWeek && !StaleState(s, Today(env)) ==> r == ClockBreakAsWritten(s, env)
    ensures env.hasWeek && s.state.Some? && s.state.value.workDate == Today(env) ==>
      && r == ToggleToday(s, env, s.state.value)
      && r.store.state.value.breakRunning == !s.state.value.breakRunning
  {
    if !env.hasWeek then Transition(Failed(NoActiveWeek), s)
    else if s.state.None? || s.state.value.workDate != Today(env) then StartFresh(s, env)
    else ToggleToday(s, env, s.state.value)
  }

  // ---------------------------------------------------------------------
  // clock_extra_confirm
  // ---------------------------------------------------------------------

  /** Record the user's answer for day `d`: asked, and authorised or not. */
  function ConfirmExtra(s: Store, env: Env, d: int, authorized: bool): (r: Transition)
    ensures !env.hasWeek ==> r == Transition(Failed(NoActiveWeek), s)
    // with a week: the answer is recorded on day `d` (created if missing) and
    // nothing else changes, neither other days, the punches of `d`, nor the state row
    ensures env.hasWeek ==> r.outcome == Committed && r.store.state == s.state
    ensures env.hasWeek ==>
      && r.store.entries.Keys == s.entries.Keys + {d}
      && forall k :: k in s.entries && k != d ==> r.store.entries[k] == s.entries[k]
    ensures env.hasWeek ==>
      var e := EntryFor(s, d, env.paidHolidays);
      var e' := r.store.entries[d];
      && e'.extraChecked && e'.extraAuthorized == authorized
      && e'.timeIn == e.timeIn && e'.timeOut == e.timeOut
      && e'.breakMinutes == e.breakMinutes && e'.multiplier == e.multiplier
  {
    if !env.hasWeek then Transition(Failed(NoActiveWeek), s)
    else
      var e := EntryFor(s, d, env.paidHolidays);
      Transition(Committed, Store(s.entries[d := e.(extraChecked := true, extraAuthorized := authorized)], s.state))
  }

  // ---------------------------------------------------------------------
  // clock_today
  // ---------------------------------------------------------------------

  datatype TodayView = NoWeek | TodayView(inTime: Option<int>, outTime: Option<int>, breakMinutes: int, breakRunning: bool)

  datatype TodayResult = TodayResult(view: TodayView, store: Store)

  /** Read today's clock: a missing or stale state row is reset to today's
      entry with no break running; a current one is resynced from the entry,
      keeping its break tracking. */
  function ClockToday(s: Store, env: Env): (r: TodayResult)
    ensures !env.hasWeek ==> r == TodayResult(NoWeek, s)
    ensures env.hasWeek ==>
      var today := Today(env);
      var e := EntryFor(s, today, env.paidHolidays);
      && r.store.entries == s.entries[today := e]
      && r.store.state.Some?
      && var st := r.store.state.value;
      && st.workDate == today
      && st.inTime == e.timeIn && st.outTime == e.timeOut && st.breakMinutes == e.breakMinutes
      && (s.state.None? || StaleState(s, today) ==> !st.breakRunning && st.breakStart.None?)
      && (s.state.Some? && !StaleState(s, today) ==>
            st.breakRunning == s.state.value.breakRunning && st.breakStart == s.state.value.breakStart)
      && r.view == TodayView(st.inTime, st.outTime, st.breakMinutes, st.breakRunning)
  {
    if !env.hasWeek then TodayResult(NoWeek, s)
    else
      var today := Today(env);
      var e := EntryFor(s, today, env.paidHolidays);
      var st := if s.state.None? || s.state.value.workDate != today then
          ClockState(today, e.timeIn, e.timeOut, false, None, e.breakMinutes)
        else
          s.state.value.(inTime := e.timeIn, outTime := e.timeOut, breakMinutes := e.breakMinutes);
      TodayResult(TodayView(st.inTime, st.outTime, st.breakMinutes, st.breakRunning),
                  Store(s.entries[today := e], Some(st)))
  }

  // ---------------------------------------------------------------------
  // upsert_entry (manual edit) and its today resync
  // ---------------------------------------------------------------------

  /** The fields a manual edit sets. */
  datatype EntryEdit = EntryEdit(timeIn: Option<int>, timeOut: Option<int>, breakMinutes: int)

  /** Write the edited entry for day `d` (re-freezing its multiplier, keeping the
      confirmation flags) and, when `d` is today and the state row is today's,
      copy in/out/break into the state row without touching break tracking. */
  function UpsertEntry(s: Store, env: Env, d: int, edit: EntryEdit, weekExists: bool): (r: Transition)
    ensures !weekExists ==> r == Transition(Failed(WeekNotFound), s)
    ensures weekExists ==> r.outcome == Committed && d in r.store.entries
    ensures weekExists ==>
      var e := r.store.entries[d];
      && e.timeIn == edit.timeIn && e.timeOut == edit.timeOut && e.breakMinutes == edit.breakMinutes
      && e.multiplier == MultiplierForDate(env.paidHolidays, d)
      && e.extraChecked == EntryFor(s, d, env.paidHolidays).extraChecked
      && e.extraAuthorized == EntryFor(s, d, env.paidHolidays).extraAuthorized
      && (forall k :: k in s.entries && k != d ==> k in r.store.entries && r.store.entries[k] == s.entries[k])
      && r.store.entries.Keys == s.entries.Keys + {d}
    ensures weekExists && d == Today(env) && s.state.Some? && s.state.value.workDate == d ==>
      r.store.state == Some(s.state.value.(inTime := edit.timeIn, outTime := edit.timeOut, breakMinutes := edit.breakMinutes))
    ensures weekExists && !(d == Today(env) && s.state.Some? && s.state.value.workDate == d) ==>
      r.store.state == s.state
  {
    if !weekExists then Transition(Failed(WeekNotFound), s)
    else
      var prev := EntryFor(s, d, env.paidHolidays);
      var e := prev.(timeIn := edit.timeIn, timeOut := edit.timeOut, breakMinutes := edit.breakMinutes,
                    multiplier := MultiplierForDate(env.paidHolidays, d));
      var st := if d == Today(env) && s.state.Some? && s.state.value.workDate == d then
          Some(s.state.value.(inTime := edit.timeIn, outTime := edit.timeOut, breakMinutes := edit.breakMinutes))
        else s.state;
      Transition(Committed, Store(s.entries[d := e], st))
  }
}

=== FILE: clock_machine.dfy ===
/** The clock operations as one state machine, the invariants every
    transition keeps, and the confirmation protocol and quirks stated as
    lemmas over whole runs. */
module ClockMachine {
  import opened Wrappers
  import opened TimeArith
  import opened Roster
  import opened PaidWindow
  import opened Payable
  import opened Clock

  datatype Command =
    | ClockInCmd
    | ClockOutCmd
    | BreakCmd
    | ConfirmCmd(day: int, authorized: bool)
    | TodayCmd
    | EditCmd(day: int, edit: EntryEdit, weekExists: bool)

  /** The store after one command (the break toggle with the upsert fix). */
  function Next(s: Store, env: Env, c: Command): Store {
    match c
    case ClockInCmd => ClockIn(s, env).store
    case ClockOutCmd => ClockOut(s, env).store
    case BreakCmd => ClockBreak(s, env).store
    case ConfirmCmd(d, a) => ConfirmExtra(s, env, d, a).store
    case TodayCmd => ClockToday(s, env).store
    case EditCmd(d, edit, w) => UpsertEntry(s, env, d, edit, w).store
  }

  /** A running break always has a start. */
  predicate BreakTracked(s: Store) {
    s.state.Some? && s.state.value.breakRunning ==> s.state.value.breakStart.Some?
  }

  /** The state row is today's and mirrors today's entry. */
  predicate Synced(s: Store, today: int) {
    && s.state.Some?
    && s.state.value.workDate == today
    && today in s.entries
    && s.state.value.inTime == s.entries[today].timeIn
    && s.state.value.outTime == s.entries[today].timeOut
    && s.state.value.breakMinutes == s.entries[today].breakMinutes
  }

  lemma {:induction false} NextKeepsBreakTracked(s: Store, env: Env, c: Command)
    requires BreakTracked(s)
    ensures BreakTracked(Next(s, env, c))
  {
    match c
    case ClockInCmd =>
    case ClockOutCmd =>
    case BreakCmd =>
    case ConfirmCmd(d, a) =>
    case TodayCmd =>
    case EditCmd(d, edit, w) =>
  }

  /** Reading today's clock brings the state row in line with today. */
  lemma ClockTodaySyncs(s: Store, env: Env)
    requires env.hasWeek
    ensures Synced(ClockToday(s, env).store, Today(env))
  {
  }

  /** Once in line, every clock command of the same day keeps the state row in line. */
  lemma {:induction false} NextKeepsSynced(s: Store, env: Env, c: Command)
    requires Synced(s, Today(env))
    requires !c.EditCmd?
    ensures Synced(Next(s, env, c), Today(env))
  {
    var today := Today(env);
    assert EntryFor(s, today, env.paidHolidays) == s.entries[today];
    match c
    case ClockInCmd =>
    case ClockOutCmd =>
    case BreakCmd =>
    case ConfirmCmd(d, a) =>
    case TodayCmd =>
  }

  /** A manual edit of any day keeps the state row in line: an edit of today
      is copied into the row, an edit of another day touches neither. */
  lemma EditKeepsSynced(s: Store, env: Env, d: int, edit: EntryEdit, weekExists: bool)
    requires Synced(s, Today(env))
    ensures Synced(UpsertEntry(s, env, d, edit, weekExists).store, Today(env))
    ensures weekExists && d == Today(env) ==>
      var st := UpsertEntry(s, env, d, edit, weekExists).store.state.value;
      st.breakRunning == s.state.value.breakRunning && st.breakStart == s.state.value.breakStart
  {
  }

  /** From a store whose state row is today's and mirrors today's entry, no
      command but a manual edit lowers today's break total. A state row left
      from another day voids this (see `StaleClockOutLowersBreak`). */
  lemma {:induction false} BreakNeverDecreases(s: Store, env: Env, c: Command)
    requires Synced(s, Today(env))
    requires !c.EditCmd?
    ensures var s' := Next(s, env, c);
      && Today(env) in s'.entries
      && s'.entries[Today(env)].breakMinutes >= s.entries[Today(env)].breakMinutes
      && s'.state.Some? && s'.state.value.breakMinutes >= s.state.value.breakMinutes
  {
    var today := Today(env);
    assert EntryFor(s, today, env.paidHolidays) == s.entries[today];
    match c
    case ClockInCmd =>
    case ClockOutCmd =>
    case BreakCmd =>
    case ConfirmCmd(d, a) =>
    case TodayCmd =>
  }

  // ---------------------------------------------------------------------
  // The confirmation protocol
  // ---------------------------------------------------------------------

  /** An early, unconfirmed clock-in is held back; after the user answers
      "not authorised" the same punch commits with the official start, and
      after "authorised" it commits with the real time. */
  lemma {:induction false} EarlyInConfirmThenResubmit(s: Store, env: Env, authorized: bool)
    requires ClockIn(s, env).outcome.NeedsConfirm?
    requires ClockIn(s, env).outcome.pending.reason == EarlyIn
    ensures var s1 := ClockIn(s, env).store;
      var s2 := ConfirmExtra(s1, env, Today(env), authorized).store;
      var r := ClockIn(s2, env);
      && r.outcome == Committed
      && r.store.entries[Today(env)].timeIn == Some(if authorized then Punch(env) else OfficialIn(env).value)
  {
    var today := Today(env);
    var s1 := ClockIn(s, env).store;
    var s2 := ConfirmExtra(s1, env, today, authorized).store;
    assert env.hasWeek;
    assert EntryFor(s2, today, env.paidHolidays).extraChecked;
    assert EntryFor(s2, today, env.paidHolidays).extraAuthorized == authorized;
    assert !IsDayOff(env);
  }

  /** On a day off the first punch asks; a "not authorised" answer makes every
      later punch that day a no-op that changes nothing. */
  lemma {:induction false} DayOffRefusalIgnoresPunches(s: Store, env: Env, c: Command)
    requires env.hasWeek && IsDayOff(env)
    requires c == ClockInCmd || c == ClockOutCmd
    ensures var s1 := ConfirmExtra(s, env, Today(env), false).store;
      && (c == ClockInCmd ==> ClockIn(s1, env) == Transition(Ignored, s1))
      && (c == ClockOutCmd ==> ClockOut(s1, env) == Transition(Ignored, s1))
  {
    var s1 := ConfirmExtra(s, env, Today(env), false).store;
    assert Today(env) in s1.entries;
    assert Touch(s1, Today(env), env.paidHolidays) == s1;
  }

  /** Confirming touches only the two flags of the chosen day's entry. */
  lemma ConfirmChangesOnlyFlags(s: Store, env: Env, d: int, authorized: bool)
    requires env.hasWeek
    ensures var s' := ConfirmExtra(s, env, d, authorized).store;
      && s'.state == s.state
      && s'.entries.Keys == s.entries.Keys + {d}
      && (forall k :: k in s.entries && k != d ==> s'.entries[k] == s.entries[k])
      && s'.entries[d] == EntryFor(s, d, env.paidHolidays).(extraChecked := true, extraAuthorized := authorized)
  {
  }

  // ---------------------------------------------------------------------
  // Concrete runs
  // ---------------------------------------------------------------------

  /** 2024-10-04 (a Friday) as a day number. */
  const Day: int := 20000

  function At(d: int, h: int, m: int): int {
    d * SecondsPerDay + (h * 60 + m) * SecondsPerMinute
  }

  /** A break started at 13:00 and still running when the user clocks out at
      13:20 adds 20 minutes to both records before the OUT is stored. */
  lemma ClockOutStopsRunningBreak()
    ensures var e := Entry(Some(585), None, 0, Normal, false, false);
      var s := Store(map[Day := e], Some(ClockState(Day, Some(585), None, true, Some(At(Day, 13, 0)), 0)));
      var env := Env(At(Day, 13, 20), true, None, {});
      var r := ClockOut(s, env);
      && r.outcome == Committed
      && r.store.entries[Day].breakMinutes == 20
      && r.store.state.value.breakMinutes == 20
      && !r.store.state.value.breakRunning
      && r.store.entries[Day].timeOut == Some(13 * 60 + 20)
  {
    var env := Env(At(Day, 13, 20), true, None, {});
    assert Today(env) == Day;
    assert Punch(env) == 13 * 60 + 20;
    assert ElapsedMinutes(At(Day, 13, 0), At(Day, 13, 20)) == 20;
  }

  /** Clock-in resets a running break without folding its minutes. */
  lemma ClockInDropsRunningBreak()
    ensures var e := Entry(Some(585), None, 30, Normal, true, true);
      var s := Store(map[Day := e], Some(ClockState(Day, Some(585), None, true, Some(At(Day, 13, 0)), 30)));
      var env := Env(At(Day, 14, 0), true, None, {});
      var r := ClockIn(s, env);
      && r.outcome == Committed
      && !r.store.state.value.breakRunning
      && r.store.state.value.breakMinutes == 30
      && r.store.entries[Day].breakMinutes == 30
  {
    var env := Env(At(Day, 14, 0), true, None, {});
    assert Today(env) == Day;
  }

  /** Clock-out over yesterday's state row keeps yesterday's IN in the state
      row, so the row no longer mirrors today's entry. */
  lemma ClockOutKeepsStaleInTime()
    ensures var s := Store(map[], Some(ClockState(Day - 1, Some(585), Some(1140), false, None, 60)));
      var env := Env(At(Day, 19, 0), true, None, {});
      var r := ClockOut(s, env);
      && r.outcome == Committed
      && r.store.state.value.workDate == Day
      && r.store.state.value.inTime == Some(585)
      && r.store.entries[Day].timeIn == None
      && !Synced(r.store, Day)
  {
    var env := Env(At(Day, 19, 0), true, None, {});
    assert Today(env) == Day;
  }

  /** A break started at 23:59 and still running at midnight: clocking out at
      00:01 folds the state row's total (0) plus two minutes into today's entry,
      replacing the 30 minutes it already held. */
  lemma StaleClockOutLowersBreak()
    ensures var e := Entry(Some(600), None, 30, Normal, false, false);
      var s := Store(map[Day := e], Some(ClockState(Day - 1, Some(585), None, true, Some(At(Day - 1, 23, 59)), 0)));
      var env := Env(At(Day, 0, 1), true, None, {});
      var r := ClockOut(s, env);
      && r.outcome == Committed
      && r.store.entries[Day].breakMinutes == 2 < s.entries[Day].breakMinutes
  {
    var env := Env(At(Day, 0, 1), true, None, {});
    assert Today(env) == Day;
  }

  /** A break toggle with yesterday's state row still in place fails as written,
      and with the upsert fix starts today's break. */
  lemma StaleRowBreakToggle()
    ensures var s := Store(map[], Some(ClockState(Day - 1, Some(585), Some(1140), false, None, 60)));
      var env := Env(At(Day, 13, 0), true, None, {});
      && ClockBreakAsWritten(s, env).outcome == Failed(StateRowConflict)
      && ClockBreak(s, env).outcome == Committed
      && ClockBreak(s, env).store.state.value.breakRunning
  {
    var env := Env(At(Day, 13, 0), true, None, {});
    assert Today(env) == Day;
  }

  /** An early clock-in at 09:20 against a 09:45 shift, once confirmed as not
      authorised, stores 09:45. */
  lemma EarlyInScenario()
    ensures var s := Store(map[], None);
      var env := Env(At(Day, 9, 20), true, Some(Worked(ShiftA)), {});
      var r1 := ClockIn(s, env);
      && r1.outcome == NeedsConfirm(Pending(In, EarlyIn, Some(585), 560))
      && var s2 := ConfirmExtra(r1.store, env, Day, false).store;
      && ClockIn(s2, env).store.entries[Day].timeIn == Some(585)
  {
    var s := Store(map[], None);
    var env := Env(At(Day, 9, 20), true, Some(Worked(ShiftA)), {});
    assert Today(env) == Day;
    assert Punch(env) == 560;
    EarlyInConfirmThenResubmit(s, env, false);
  }
}

=== FILE: paid_window.dfy ===
/** `compute_paid_window`: from the official shift and the real punches, the
    payable interval and the six audit flags that explain every adjustment.
    Each boundary is, in order, normalised overnight, snapped to the official
    time within +-5 minutes, otherwise capped to the official time when the
    overtime is not authorised, rounded against the employee (IN up, OUT down)
    unless it was snapped, and finally OUT is clamped so it is never before IN. */
module PaidWindow {
  import opened Wrappers
  import opened TimeArith

  /** TOLERANCE_MIN */
  const Tolerance: int := 5

  function Abs(x: int): int {
    if x < 0 then -x else x
  }

  predicate WithinTolerance(punch: int, official: int) {
    Abs(punch - official) <= Tolerance
  }

  datatype Flags = Flags(
    snapIn: bool, snapOut: bool,
    capIn: bool, capOut: bool,
    roundIn: bool, roundOut: bool)

  const NoFlags: Flags := Flags(false, false, false, false, false, false)

  /** The payable interval in minutes; OUT may exceed 1440 after an overnight shift. */
  datatype Window = Window(paidIn: int, paidOut: int) {
    function Span(): int { paidOut - paidIn }
  }

  datatype WindowResult = WindowResult(window: Option<Window>, flags: Flags)

  /** One boundary after snap and cap, before rounding. */
  datatype Boundary = Boundary(value: int, snapped: bool, capped: bool)

  /** A punch OUT earlier than IN is taken to be on the next day. */
  function NormaliseOut(realIn: int, realOut: int): (r: int)
    ensures r % MinutesPerDay == realOut % MinutesPerDay
    ensures realOut >= realIn ==> r == realOut
    ensures IsMinuteOfDay(realIn) && IsMinuteOfDay(realOut) ==> realIn <= r < realIn + MinutesPerDay
  {
    if realOut < realIn then realOut + MinutesPerDay else realOut
  }

  /** The official OUT, moved to the next day when it is earlier than the
      official IN; left alone when there is no official IN. */
  function AlignOfficialOut(officialIn: Option<int>, officialOut: Option<int>): (r: Option<int>)
    ensures r.Some? <==> officialOut.Some?
    ensures r.Some? ==> r.value % MinutesPerDay == officialOut.value % MinutesPerDay
    ensures r.Some? && officialIn.Some? && IsMinuteOfDay(officialIn.value) && IsMinuteOfDay(officialOut.value) ==>
      officialIn.value <= r.value < officialIn.value + MinutesPerDay
  {
    match officialOut
    case None => None
    case Some(off) =>
      if officialIn.Some? && off < officialIn.value then Some(off + MinutesPerDay) else Some(off)
  }

  /** The IN side of snap and cap: only an EARLY arrival can be capped. */
  function SnapOrCapIn(punch: int, official: Option<int>, authorized: bool): (b: Boundary)
    ensures !(b.snapped && b.capped)
    ensures b.snapped <==> official.Some? && WithinTolerance(punch, official.value)
    ensures b.capped <==> official.Some? && !authorized && punch < official.value - Tolerance
    ensures b.value == (if b.snapped || b.capped then official.value else punch)
  {
    match official
    case None => Boundary(punch, false, false)
    case Some(off) =>
      if WithinTolerance(punch, off) then Boundary(off, true, false)
      else if !authorized && punch < off - Tolerance then Boundary(off, false, true)
      else Boundary(punch, false, false)
  }

  /** The OUT side of snap and cap: only a LATE departure can be capped. */
  function SnapOrCapOut(punch: int, official: Option<int>, authorized: bool): (b: Boundary)
    ensures !(b.snapped && b.capped)
    ensures b.snapped <==> official.Some? && WithinTolerance(punch, official.value)
    ensures b.capped <==> official.Some? && !authorized && punch > official.value + Tolerance
    ensures b.value == (if b.snapped || b.capped then official.value else punch)
  {
    match official
    case None => Boundary(punch, false, false)
    case Some(off) =>
      if WithinTolerance(punch, off) then Boundary(off, true, false)
      else if !authorized && punch > off + Tolerance then Boundary(off, false, true)
      else Boundary(punch, false, false)
  }

  function ComputePaidWindow(
    officialIn: Option<int>, officialOut: Option<int>,
    realIn: Option<int>, realOut: Option<int>,
    authorized: bool): (r: WindowResult)
    // a missing punch yields no window and no adjustment
    ensures r.window.None? <==> realIn.None? || realOut.None?
    ensures r.window.None? ==> r.flags == NoFlags
    // the window is never inverted
    ensures r.window.Some? ==> r.window.value.paidIn <= r.window.value.paidOut
    // no boundary is both snapped and capped; capping needs unauthorised overtime
    ensures !(r.flags.snapIn && r.flags.capIn) && !(r.flags.snapOut && r.flags.capOut)
    ensures r.flags.capIn || r.flags.capOut ==> !authorized
    // only a boundary that was not snapped is ever rounded
    ensures r.flags.snapIn ==> !r.flags.roundIn
    ensures r.flags.snapOut ==> !r.flags.roundOut
    // each flag means exactly what the audit trail says
    ensures r.window.Some? ==>
      var rin := realIn.value;
      var rout := NormaliseOut(realIn.value, realOut.value);
      var offOut := AlignOfficialOut(officialIn, officialOut);
      && (r.flags.snapIn <==> officialIn.Some? && WithinTolerance(rin, officialIn.value))
      && (r.flags.snapOut <==> offOut.Some? && WithinTolerance(rout, offOut.value))
      && (r.flags.capIn <==> officialIn.Some? && !authorized && rin < officialIn.value - Tolerance)
      && (r.flags.capOut <==> offOut.Some? && !authorized && rout > offOut.value + Tolerance)
      && (r.flags.roundIn <==> !r.flags.snapIn && !OnStep(if r.flags.capIn then officialIn.value else rin))
      && (r.flags.roundOut <==> !r.flags.snapOut && !OnStep(if r.flags.capOut then offOut.value else rout))
  {
    if realIn.None? || realOut.None? then WindowResult(None, NoFlags)
    else
      var rin := realIn.value;
      var rout := NormaliseOut(rin, realOut.value);
      var bin := SnapOrCapIn(rin, officialIn, authorized);
      var bout := SnapOrCapOut(rout, AlignOfficialOut(officialIn, officialOut), authorized);
      var pin := if bin.snapped then bin.value else RoundCeil(bin.value);
      var pout := if bout.snapped then bout.value else RoundFloor(bout.value);
      var flags := Flags(bin.snapped, bout.snapped, bin.capped, bout.capped,
                         !bin.snapped && pin != bin.value, !bout.snapped && pout != bout.value);
      WindowResult(Some(Window(pin, if pout < pin then pin else pout)), flags)
  }

  // ---------------------------------------------------------------------
  // Properties
  // ---------------------------------------------------------------------

  /** Snap takes precedence on IN: within tolerance the paid IN is the official
      IN exactly and nothing else touches it; otherwise it is the punch or capped
      time rounded UP to a 15-minute mark. */
  lemma SnapPrecedenceIn(officialIn: Option<int>, officialOut: Option<int>, realIn: int, realOut: int, authorized: bool)
    ensures var r := ComputePaidWindow(officialIn, officialOut, Some(realIn), Some(realOut), authorized);
      && (r.flags.snapIn <==> officialIn.Some? && WithinTolerance(realIn, officialIn.value))
      && (r.flags.snapIn ==> r.window.value.paidIn == officialIn.value && !r.flags.capIn && !r.flags.roundIn)
      && (!r.flags.snapIn ==> r.window.value.paidIn == RoundCeil(if r.flags.capIn then officialIn.value else realIn))
      && (!r.flags.snapIn ==> OnStep(r.window.value.paidIn))
  {
  }

  /** Snap takes precedence on OUT, against the overnight-normalised times: a
      snapped OUT is the official OUT (unless the final clamp lifts it up to IN);
      otherwise it is the punch or capped time rounded DOWN, then clamped. */
  lemma SnapPrecedenceOut(officialIn: Option<int>, officialOut: Option<int>, realIn: int, realOut: int, authorized: bool)
    ensures var r := ComputePaidWindow(officialIn, officialOut, Some(realIn), Some(realOut), authorized);
      var rout := NormaliseOut(realIn, realOut);
      var off := AlignOfficialOut(officialIn, officialOut);
      var w := r.window.value;
      && (r.flags.snapOut <==> off.Some? && WithinTolerance(rout, off.value))
      && (r.flags.snapOut ==> !r.flags.capOut && !r.flags.roundOut && w.paidOut == (if off.value < w.paidIn then w.paidIn else off.value))
      && (!r.flags.snapOut ==>
            var pre := RoundFloor(if r.flags.capOut then off.value else rout);
            w.paidOut == (if pre < w.paidIn then w.paidIn else pre))
  {
  }

  /** Without authorisation, the paid IN is never before the official IN. */
  lemma UnauthorizedInNeverEarly(officialIn: int, officialOut: Option<int>, realIn: int, realOut: int)
    ensures var r := ComputePaidWindow(Some(officialIn), officialOut, Some(realIn), Some(realOut), false);
      r.window.value.paidIn >= officialIn
  {
  }

  /** Without authorisation, the paid OUT is never after the (aligned) official
      OUT, except where the final clamp makes the window empty. */
  lemma UnauthorizedOutNeverLate(officialIn: Option<int>, officialOut: int, realIn: int, realOut: int)
    ensures var r := ComputePaidWindow(officialIn, Some(officialOut), Some(realIn), Some(realOut), false);
      var off := AlignOfficialOut(officialIn, Some(officialOut)).value;
      r.window.value.paidOut <= off || r.window.value.Span() == 0
  {
  }

  /** With authorisation nothing is capped: each boundary is snapped or rounded
      from the real punch. */
  lemma AuthorizedKeepsRealTimes(officialIn: Option<int>, officialOut: Option<int>, realIn: int, realOut: int)
    ensures var r := ComputePaidWindow(officialIn, officialOut, Some(realIn), Some(realOut), true);
      && !r.flags.capIn && !r.flags.capOut
      && (!r.flags.snapIn ==> r.window.value.paidIn == RoundCeil(realIn))
  {
  }

  /** With no official shift the only adjustment is rounding. */
  lemma NoOfficialShiftOnlyRounds(realIn: int, realOut: int, authorized: bool)
    ensures var r := ComputePaidWindow(None, None, Some(realIn), Some(realOut), authorized);
      var pin := RoundCeil(realIn);
      var pout := RoundFloor(NormaliseOut(realIn, realOut));
      && !r.flags.snapIn && !r.flags.snapOut && !r.flags.capIn && !r.flags.capOut
      && r.window == Some(Window(pin, if pout < pin then pin else pout))
  {
  }

  /** Without official times, recomputing with an already paid window as the
      punches reproduces that window. */
  lemma PaidWindowIsAFixpoint(realIn: int, realOut: int, authorized: bool)
    ensures var w := ComputePaidWindow(None, None, Some(realIn), Some(realOut), authorized).window.value;
      ComputePaidWindow(None, None, Some(w.paidIn), Some(w.paidOut), authorized).window == Some(w)
  {
    var w := ComputePaidWindow(None, None, Some(realIn), Some(realOut), authorized).window.value;
    RoundingIsIdempotent(realIn);
    assert OnStep(w.paidIn) && OnStep(w.paidOut);
    RoundingIsIdempotent(w.paidIn);
    RoundingIsIdempotent(w.paidOut);
  }
}

=== FILE: payable.dfy ===
/** Payable minutes and the pay multiplier: the official shift a day is judged
    against (roster row, or the A/B guess from the real clock-in), the
    statutory break floor, `minutes_paid_between` and `multiplier_for_date`. */
module Payable {
  import opened Wrappers
  import opened TimeArith
  import opened Roster
  import opened PaidWindow

  /** BREAK_FIXED_MIN: the break billed when it was shorter. */
  const BreakFixed: int := 60

  /** Clock-ins up to 10:15 are taken to be shift A, later ones shift B. */
  const ShiftCutoff: int := 10 * 60 + 15

  function Max(a: int, b: int): int {
    if a < b then b else a
  }

  /** `effective_break_minutes`: with both punches the break is at least the
      statutory hour; with either punch missing nothing is deducted. */
  function EffectiveBreak(timeIn: Option<int>, timeOut: Option<int>, recorded: int): (b: int)
    ensures timeIn.None? || timeOut.None? ==> b == 0
    ensures timeIn.Some? && timeOut.Some? ==>
      b >= BreakFixed && b >= recorded && (b == BreakFixed || b == recorded)
  {
    if timeIn.None? || timeOut.None? then 0 else Max(BreakFixed, recorded)
  }

  /** `detect_shift`: the catalog shift a real clock-in most likely belongs to. */
  function DetectShift(timeIn: Option<int>): (r: Option<Shift>)
    ensures r.None? <==> timeIn.None?
    ensures r.Some? ==> (r.value == ShiftA <==> timeIn.value <= ShiftCutoff)
    ensures r.Some? ==> (r.value == ShiftB <==> timeIn.value > ShiftCutoff)
  {
    match timeIn
    case None => None
    case Some(t) => if t <= ShiftCutoff then Some(ShiftA) else Some(ShiftB)
  }

  /** The official in/out `minutes_paid_between` uses: the roster row's shift
      when the row exists and is not a day off; if either end is then still
      missing, which includes every day off, the shift guessed from the real
      clock-in. */
  function OfficialShift(ro: Option<RosterDay>, timeIn: int): (r: (Option<int>, Option<int>))
    ensures r.0.Some? && r.1.Some?
    ensures ro.Some? && !ro.value.dayOff && ro.value.shiftIn.Some? && ro.value.shiftOut.Some? ==>
      r == (ro.value.shiftIn, ro.value.shiftOut)
    ensures ro.None? || ro.value.dayOff || ro.value.shiftIn.None? || ro.value.shiftOut.None? ==>
      var s := DetectShift(Some(timeIn)).value; r == (Some(s.shiftIn), Some(s.shiftOut))
  {
    var offIn := if ro.Some? && !ro.value.dayOff then ro.value.shiftIn else None;
    var offOut := if ro.Some? && !ro.value.dayOff then ro.value.shiftOut else None;
    if offIn.None? || offOut.None? then
      var s := DetectShift(Some(timeIn)).value;
      (Some(s.shiftIn), Some(s.shiftOut))
    else
      (offIn, offOut)
  }

  datatype PaidMeta =
    | MissingInOrOut
    | Paid(window: Window, flags: Flags, breakEffective: int)

  datatype PaidMinutes = PaidMinutes(minutes: int, meta: PaidMeta)

  /** `minutes_paid_between`: the paid window net of the effective break,
      never negative. */
  function MinutesPaidBetween(
    ro: Option<RosterDay>, timeIn: Option<int>, timeOut: Option<int>,
    breakRecorded: int, authorized: bool): (r: PaidMinutes)
    ensures r.minutes >= 0
    ensures timeIn.None? || timeOut.None? ==> r == PaidMinutes(0, MissingInOrOut)
    ensures timeIn.Some? && timeOut.Some? ==>
      && r.meta.Paid?
      && r.meta.breakEffective == Max(BreakFixed, breakRecorded)
      && r.minutes == Max(0, r.meta.window.Span() - Max(BreakFixed, breakRecorded))
      && r.minutes <= Max(0, r.meta.window.Span() - BreakFixed)
  {
    if timeIn.None? || timeOut.None? then PaidMinutes(0, MissingInOrOut)
    else
      var official := OfficialShift(ro, timeIn.value);
      var res := ComputePaidWindow(official.0, official.1, timeIn, timeOut, authorized);
      var w := res.window.value;
      var worked := Max(0, w.Span());
      var br := EffectiveBreak(timeIn, timeOut, breakRecorded);
      PaidMinutes(Max(0, worked - br), Paid(w, res.flags, br))
  }

  /** The paid window and flags reported alongside the minutes are exactly
      those of `compute_paid_window` against the resolved official shift. */
  lemma PaidMinutesUsesPaidWindow(ro: Option<RosterDay>, timeIn: int, timeOut: int, breakRecorded: int, authorized: bool)
    ensures var official := OfficialShift(ro, timeIn);
      var res := ComputePaidWindow(official.0, official.1, Some(timeIn), Some(timeOut), authorized);
      var r := MinutesPaidBetween(ro, Some(timeIn), Some(timeOut), breakRecorded, authorized);
      r.meta.window == res.window.value && r.meta.flags == res.flags
  {
  }

  /** A day-off roster row is paid exactly as if no roster covered the day:
      both fall back to the guessed A/B shift. */
  lemma DayOffPaidLikeNoRoster(ro: RosterDay, timeIn: Option<int>, timeOut: Option<int>, breakRecorded: int, authorized: bool)
    requires ro.dayOff
    ensures MinutesPaidBetween(Some(ro), timeIn, timeOut, breakRecorded, authorized)
         == MinutesPaidBetween(None, timeIn, timeOut, breakRecorded, authorized)
  {
  }

  /** Punches within tolerance of both official ends pay the whole official
      shift less the effective break. */
  lemma OnTimePunchesPayWholeShift(shift: Shift, timeIn: int, timeOut: int, breakRecorded: int, authorized: bool)
    requires shift.shiftIn <= shift.shiftOut
    requires timeIn <= timeOut
    requires WithinTolerance(timeIn, shift.shiftIn) && WithinTolerance(timeOut, shift.shiftOut)
    ensures var r := MinutesPaidBetween(Some(Worked(shift)), Some(timeIn), Some(timeOut), breakRecorded, authorized);
      && r.meta.window == Window(shift.shiftIn, shift.shiftOut)
      && r.meta.flags.snapIn && r.meta.flags.snapOut
      && r.minutes == Max(0, (shift.shiftOut - shift.shiftIn) - Max(BreakFixed, breakRecorded))
  {
  }

  /** 09:50 to 19:03 on a rostered 09:45-19:00 shift, unauthorised: both ends
      snap, 555 minutes less the effective break are paid. */
  lemma ScenarioSnapBothEnds(breakRecorded: int)
    ensures var r := MinutesPaidBetween(Some(Worked(ShiftA)), Some(9 * 60 + 50), Some(19 * 60 + 3), breakRecorded, false);
      && r.meta.window == Window(9 * 60 + 45, 19 * 60)
      && r.minutes == Max(0, 555 - Max(BreakFixed, breakRecorded))
      && (breakRecorded <= BreakFixed ==> r.minutes == 495)
  {
    OnTimePunchesPayWholeShift(ShiftA, 9 * 60 + 50, 19 * 60 + 3, breakRecorded, false);
  }

  // ---------------------------------------------------------------------
  // Multiplier
  // ---------------------------------------------------------------------

  /** Which pay rate a day earns: PUBLIC_HOLIDAY_MULT, 1.5 or 1.0. */
  datatype Multiplier = PublicHoliday | Sunday | Normal

  /** Python's `date.weekday()` (Monday 0 .. Sunday 6) of day number `d`,
      counting day 0 as 1970-01-01, a Thursday. */
  function Weekday(d: int): (w: int)
    ensures 0 <= w <= 6
  {
    (d + 3) % 7
  }

  /** `multiplier_for_date` given the bank-holiday lookup and the weekday. */
  function MultiplierFor(bhPaid: bool, weekday: int): (m: Multiplier)
    requires 0 <= weekday <= 6
    ensures bhPaid ==> m == PublicHoliday
    ensures !bhPaid ==> (m == Sunday <==> weekday == 6)
    ensures m == Normal <==> !bhPaid && weekday != 6
  {
    if bhPaid then PublicHoliday else if weekday == 6 then Sunday else Normal
  }

  /** The multiplier of a day number, given the days with a paid bank-holiday row. */
  function MultiplierForDate(paidHolidays: set<int>, d: int): Multiplier {
    MultiplierFor(d in paidHolidays, Weekday(d))
  }

  /** A paid bank holiday outranks Sunday; the Sunday rate recurs weekly. */
  lemma MultiplierPriority(paidHolidays: set<int>, d: int)
    ensures d in paidHolidays ==> MultiplierForDate(paidHolidays, d) == PublicHoliday
    ensures d !in paidHolidays && d + 7 !in paidHolidays ==>
      MultiplierForDate(paidHolidays, d) == MultiplierForDate(paidHolidays, d + 7)
    ensures MultiplierForDate({}, 3) == Sunday   // 1970-01-04
  {
  }
}

=== FILE: roster.dfy ===
/** Roster days: the official shift catalog (shift A 09:45-19:00, shift B
    10:45-20:00), the A/B/OFF day codes accepted when a roster is created, and
    the shape of one resolved roster row. */
module Roster {
  import opened Wrappers

  /** An official shift as minutes of the day. */
  datatype Shift = Shift(shiftIn: int, shiftOut: int)

  const ShiftA: Shift := Shift(9 * 60 + 45, 19 * 60)
  const ShiftB: Shift := Shift(10 * 60 + 45, 20 * 60)

  /** One `roster_days` row as `roster_for_date` returns it: official in/out
      (absent on a day off) and the day-off flag. */
  datatype RosterDay = RosterDay(shiftIn: Option<int>, shiftOut: Option<int>, dayOff: bool)

  const DayOffRow: RosterDay := RosterDay(None, None, true)

  function Worked(s: Shift): RosterDay {
    RosterDay(Some(s.shiftIn), Some(s.shiftOut), false)
  }

  /** The rows a roster can be created with. */
  predicate InCatalog(d: RosterDay) {
    d == DayOffRow || d == Worked(ShiftA) || d == Worked(ShiftB)
  }

  // ---------------------------------------------------------------------
  // Day codes
  // ---------------------------------------------------------------------

  /** The ASCII characters `str.isspace()` accepts: space, tab, line feed,
      carriage return, vertical tab, form feed and the four separators 0x1C-0x1F. */
  predicate IsSpace(c: char) {
    c == ' ' || c == '\t' || c == '\n' || c == '\r' || c == '\U{0B}' || c == '\U{0C}'
    || ('\U{1C}' <= c <= '\U{1F}')
  }

  /** Python `str.strip()` over ASCII whitespace. */
  function Strip(s: string): (r: string)
    ensures |r| <= |s|
    ensures |r| > 0 ==> !IsSpace(r[0]) && !IsSpace(r[|r| - 1])
    decreases |s|
  {
    if |s| > 0 && IsSpace(s[0]) then Strip(s[1..])
    else if |s| > 0 && IsSpace(s[|s| - 1]) then Strip(s[..|s| - 1])
    else s
  }

  predicate AllSpace(t: string) {
    forall k :: 0 <= k < |t| ==> IsSpace(t[k])
  }

  /** Where `Strip` cuts: the result is the slice `s[b.0..b.1]`, and only
      whitespace lies outside it. With the ends of the result not being
      whitespace, this is exactly Python's trim: nothing inside is touched. */
  function StripBounds(s: string): (b: (nat, nat))
    ensures b.0 <= b.1 <= |s|
    ensures Strip(s) == s[b.0..b.1]
    ensures AllSpace(s[..b.0]) && AllSpace(s[b.1..])
    decreases |s|
  {
    if |s| > 0 && IsSpace(s[0]) then
      var c := StripBounds(s[1..]);
      FrontCut(s, c.0, c.1);
      (c.0 + 1, c.1 + 1)
    else if |s| > 0 && IsSpace(s[|s| - 1]) then
      var c := StripBounds(s[..|s| - 1]);
      BackCut(s, c.0, c.1);
      c
    else (0, |s|)
  }

  /** A cut of `s[1..]` shifted by one is a cut of `s` when `s[0]` is whitespace. */
  lemma FrontCut(s: string, i: nat, j: nat)
    requires |s| > 0 && IsSpace(s[0]) && i <= j <= |s| - 1
    requires AllSpace(s[1..][..i]) && AllSpace(s[1..][j..])
    ensures s[1..][i..j] == s[i + 1..j + 1]
    ensures AllSpace(s[..i + 1]) && AllSpace(s[j + 1..])
  {
    assert s[..i + 1] == [s[0]] + s[1..][..i];
    assert s[j + 1..] == s[1..][j..];
  }

  /** A cut of `s` without its last character is a cut of `s` when that
      character is whitespace. */
  lemma BackCut(s: string, i: nat, j: nat)
    requires |s| > 0 && IsSpace(s[|s| - 1]) && i <= j <= |s| - 1
    requires AllSpace(s[..|s| - 1][..i]) && AllSpace(s[..|s| - 1][j..])
    ensures s[..|s| - 1][i..j] == s[i..j]
    ensures AllSpace(s[..i]) && AllSpace(s[j..])
  {
    assert s[..i] == s[..|s| - 1][..i];
    assert s[j..] == s[..|s| - 1][j..] + [s[|s| - 1]];
  }

  function UpperChar(c: char): char {
    if 'a' <= c <= 'z' then (c as int - 'a' as int + 'A' as int) as char else c
  }

  /** Python `str.upper()` over ASCII letters. */
  function Upper(s: string): (r: string)
    ensures |r| == |s|
    ensures forall i :: 0 <= i < |s| ==> r[i] == UpperChar(s[i])
  {
    if |s| == 0 then "" else [UpperChar(s[0])] + Upper(s[1..])
  }

  /** The roster row a day code stands for: "OFF", "A" or "B" after trimming
      and upper-casing; anything else is rejected. */
  function DecodeDayCode(code: string): (r: Option<RosterDay>)
    ensures r.Some? ==> InCatalog(r.value)
    // accepted exactly when the normalised code is a canonical one, and then
    // it names the row whose canonical code it is
    ensures r.Some? <==> Upper(Strip(code)) in {"OFF", "A", "B"}
    ensures r.Some? ==> Upper(Strip(code)) == EncodeDayCode(r.value)
  {
    var c := Upper(Strip(code));
    if c == "OFF" then Some(DayOffRow)
    else if c == "A" then Some(Worked(ShiftA))
    else if c == "B" then Some(Worked(ShiftB))
    else None
  }

  /** The canonical code of a catalog row. */
  function EncodeDayCode(d: RosterDay): string
    requires InCatalog(d)
  {
    if d.dayOff then "OFF" else if d == Worked(ShiftA) then "A" else "B"
  }

  lemma DayCodeRoundTrip(d: RosterDay)
    requires InCatalog(d)
    ensures DecodeDayCode(EncodeDayCode(d)) == Some(d)
  {
    var code := EncodeDayCode(d);
    assert Strip(code) == code;
    assert Upper(code) == code;
  }

  /** Decoding sees a code only through its trimmed, upper-cased form: a code
      and its normalised spelling always decode alike. */
  lemma DecodeIgnoresCaseAndPadding(code: string)
    ensures DecodeDayCode(Upper(Strip(code))) == DecodeDayCode(code)
  {
    var t := Strip(code);
    var c := Upper(t);
    UpperKeepsTrimmed(t);
    StripLeavesTrimmed(c);
    UpperIsIdempotent(t);
  }

  /** Upper-casing neither creates nor removes whitespace at the ends. */
  lemma UpperKeepsTrimmed(t: string)
    requires |t| > 0 ==> !IsSpace(t[0]) && !IsSpace(t[|t| - 1])
    ensures var c := Upper(t); |c| > 0 ==> !IsSpace(c[0]) && !IsSpace(c[|c| - 1])
  {
  }

  lemma StripLeavesTrimmed(c: string)
    requires |c| > 0 ==> !IsSpace(c[0]) && !IsSpace(c[|c| - 1])
    ensures Strip(c) == c
  {
  }

  lemma UpperIsIdempotent(t: string)
    ensures Upper(Upper(t)) == Upper(t)
  {
    assert forall i :: 0 <= i < |t| ==> Upper(Upper(t))[i] == Upper(t)[i];
  }

  /** Lower-case and padded spellings decode the same. */
  lemma DayCodeIgnoresCaseAndPadding()
    ensures DecodeDayCode(" off ") == Some(DayOffRow)
    ensures DecodeDayCode("b") == Some(Worked(ShiftB))
    ensures DecodeDayCode("C") == None
    ensures DecodeDayCode("o ff") == None
  {
    assert Strip("o ff") == "o ff";
    assert Upper("o ff") == "O FF";
    assert Strip(" off ") == "off";
    assert Upper("off") == "OFF";
    assert Upper("b") == "B";
    assert Upper("C") == "C";
  }

  // ---------------------------------------------------------------------
  // Roster creation (the per-day part of `roster_create`)
  // ---------------------------------------------------------------------

  datatype RosterError = WrongDayCount | InvalidDayCode

  /** A roster row tied to its calendar day (a day number). */
  datatype DatedDay = DatedDay(workDate: int, day: RosterDay)

  function DecodeFrom(codes: seq<string>, start: int, i: nat): (r: Option<seq<DatedDay>>)
    requires i <= |codes|
    ensures r.Some? ==> |r.value| == |codes| - i
    ensures r.Some? ==> forall k :: 0 <= k < |r.value| ==>
      r.value[k].workDate == start + i + k && Some(r.value[k].day) == DecodeDayCode(codes[i + k])
    ensures r.None? <==> exists k :: i <= k < |codes| && DecodeDayCode(codes[k]).None?
    decreases |codes| - i
  {
    if i == |codes| then Some([])
    else
      var head := DecodeDayCode(codes[i]);
      if head.None? then None
      else
        var tail := DecodeFrom(codes, start, i + 1);
        if tail.None? then None
        else
          var r := [DatedDay(start + i, head.value)] + tail.value;
          assert forall k :: 1 <= k < |r| ==> r[k] == tail.value[k - 1];
          Some(r)
  }

  /** The seven rows `roster_create` inserts for a week starting on `start`:
      day `k` falls on `start + k`, its row is the decoded code. Exactly seven
      codes are required and one bad code rejects the whole roster. */
  function CreateRosterDays(codes: seq<string>, start: int): (r: Result<seq<DatedDay>, RosterError>)
    ensures r == Err(WrongDayCount) <==> |codes| != 7
    ensures r.Ok? ==> |r.value| == 7 && forall k :: 0 <= k < 7 ==>
      r.value[k].workDate == start + k && Some(r.value[k].day) == DecodeDayCode(codes[k])
    ensures r.Ok? ==> forall k :: 0 <= k < 7 ==> InCatalog(r.value[k].day)
    ensures |codes| == 7 ==> (r == Err(InvalidDayCode) <==> exists k :: 0 <= k < 7 && DecodeDayCode(codes[k]).None?)
  {
    if |codes| != 7 then Err(WrongDayCount)
    else
      match DecodeFrom(codes, start, 0)
      case None => Err(InvalidDayCode)
      case Some(days) => Ok(days)
  }
}

=== FILE: time_arith.dfy ===
/** Minute-of-day arithmetic of the payroll core (main.py, "COMPANY RULES"):
    15-minute floor/ceiling rounding and the "HH:MM" <-> minutes conversion.

    Python's `//` and `%` floor; Dafny's `/` and `%` are Euclidean, which agrees
    with flooring whenever the divisor is positive, as every divisor here is. */
module TimeArith {
  import opened Wrappers

  /** The rounding step of `round_floor` / `round_ceil` (ROUND_STEP_MIN). */
  const RoundStep: int := 15
  const MinutesPerHour: int := 60
  const MinutesPerDay: int := 24 * 60

  /** A clock reading as `hhmm_now` produces it: 00:00 to 23:59. */
  predicate IsMinuteOfDay(m: int) {
    0 <= m < MinutesPerDay
  }

  /** `m` lies on a 15-minute mark. */
  predicate OnStep(m: int) {
    m % RoundStep == 0
  }

  /** Two marks less than one step apart, in this order, are equal or ordered. */
  lemma MarksAreStepApart(k: int, r: int)
    requires OnStep(k) && OnStep(r)
    requires k < r + RoundStep
    ensures k <= r
  {
    var a := k / RoundStep;
    var b := r / RoundStep;
    assert k == a * RoundStep;
    assert r == b * RoundStep;
    assert a * RoundStep < (b + 1) * RoundStep;
    assert a < b + 1;
  }

  /** `round_floor`: the greatest 15-minute mark not after `m`. */
  function RoundFloor(m: int): (r: int)
    ensures OnStep(r)
    ensures r <= m < r + RoundStep
    ensures forall k :: OnStep(k) && k <= m ==> k <= r
  {
    var r := (m / RoundStep) * RoundStep;
    assert forall k :: OnStep(k) && k <= m ==> k <= r by {
      forall k | OnStep(k) && k <= m
        ensures k <= r
      {
        MarksAreStepApart(k, r);
      }
    }
    r
  }

  /** `round_ceil`: the least 15-minute mark not before `m`. */
  function RoundCeil(m: int): (r: int)
    ensures OnStep(r)
    ensures r - RoundStep < m <= r
    ensures forall k :: OnStep(k) && m <= k ==> r <= k
  {
    var r := ((m + RoundStep - 1) / RoundStep) * RoundStep;
    assert forall k :: OnStep(k) && m <= k ==> r <= k by {
      forall k | OnStep(k) && m <= k
        ensures r <= k
      {
        MarksAreStepApart(r, k);
      }
    }
    r
  }

  /** Rounding a mark again changes nothing, in either direction. */
  lemma RoundingIsIdempotent(m: int)
    ensures RoundFloor(RoundFloor(m)) == RoundFloor(m)
    ensures RoundCeil(RoundCeil(m)) == RoundCeil(m)
    ensures OnStep(m) ==> RoundFloor(m) == m && RoundCeil(m) == m
  {
  }

  // ---------------------------------------------------------------------
  // Decimal digits (the part of Python's int() / format(d) used here)
  // ---------------------------------------------------------------------

  predicate IsDigit(c: char) {
    '0' <= c <= '9'
  }

  predicate AllDigits(s: string) {
    forall i :: 0 <= i < |s| ==> IsDigit(s[i])
  }

  function DigitChar(d: int): (c: char)
    requires 0 <= d < 10
    ensures IsDigit(c)
  {
    ('0' as int + d) as char
  }

  function DigitValue(c: char): (d: int)
    requires IsDigit(c)
    ensures 0 <= d < 10
  {
    c as int - '0' as int
  }

  /** The shortest decimal spelling of `n` (Python `str(n)` for n >= 0). */
  function NatToDigits(n: nat): (s: string)
    ensures 1 <= |s| && AllDigits(s)
    decreases n
  {
    if n < 10 then [DigitChar(n)] else NatToDigits(n / 10) + [DigitChar(n % 10)]
  }

  /** The value of a decimal digit string, leading zeros allowed. */
  function DigitsToNat(s: string): nat
    requires AllDigits(s)
  {
    if |s| == 0 then 0 else DigitsToNat(s[..|s| - 1]) * 10 + DigitValue(s[|s| - 1])
  }

  lemma {:induction false} DigitsRoundTrip(n: nat)
    ensures DigitsToNat(NatToDigits(n)) == n
    decreases n
  {
    var s := NatToDigits(n);
    if n < 10 {
      assert s[..|s| - 1] == [];
    } else {
      DigitsRoundTrip(n / 10);
      assert s[..|s| - 1] == NatToDigits(n / 10);
    }
  }

  /** Python `int(t)` restricted to an optional sign followed by ASCII digits. */
  function ParseInt(t: string): (r: Option<int>)
    ensures r.Some? ==> 1 <= |t|
  {
    if |t| >= 2 && (t[0] == '-' || t[0] == '+') && AllDigits(t[1..]) then
      var v: int := DigitsToNat(t[1..]);
      Some(if t[0] == '-' then -v else v)
    else if |t| >= 1 && AllDigits(t) then
      Some(DigitsToNat(t))
    else
      None
  }

  /** Python `f"{x:02d}"`: zero-padded to width two, the sign counting toward the width. */
  function Pad2(x: int): (s: string)
    ensures 2 <= |s|
    ensures ':' !in s
  {
    if x < 0 then "-" + NatToDigits(-x)
    else if x < 10 then "0" + NatToDigits(x)
    else NatToDigits(x)
  }

  lemma ParsePad2(x: int)
    ensures ParseInt(Pad2(x)) == Some(x)
  {
    var s := Pad2(x);
    if x < 0 {
      DigitsRoundTrip(-x);
      assert s[1..] == NatToDigits(-x);
    } else if x < 10 {
      assert s == [DigitChar(0), DigitChar(x)];
      assert s[..1] == [DigitChar(0)];
      assert s[..1][..0] == [];
      assert DigitsToNat(s[..1]) == 0;
      assert DigitsToNat(s) == x;
    } else {
      DigitsRoundTrip(x);
      assert s[0] != '-' && s[0] != '+';
    }
  }

  // ---------------------------------------------------------------------
  // "HH:MM" <-> minutes
  // ---------------------------------------------------------------------

  datatype TimeError = InvalidTimeFormat

  /** Python `s.split(":")`: the pieces between colons, at least one. */
  function SplitColon(s: string): (parts: seq<string>)
    ensures 1 <= |parts|
  {
    if |s| == 0 then [""]
    else if s[0] == ':' then [""] + SplitColon(s[1..])
    else
      var rest := SplitColon(s[1..]);
      [[s[0]] + rest[0]] + rest[1..]
  }

  lemma {:induction false} SplitColonFree(b: string)
    requires ':' !in b
    ensures SplitColon(b) == [b]
  {
    if |b| > 0 {
      SplitColonFree(b[1..]);
      assert [b[0]] + b[1..] == b;
    }
  }

  lemma {:induction false} SplitAtColon(a: string, b: string)
    requires ':' !in a && ':' !in b
    ensures SplitColon(a + ":" + b) == [a, b]
  {
    if |a| == 0 {
      assert a + ":" + b == [':'] + b;
      assert ([':'] + b)[1..] == b;
      SplitColonFree(b);
    } else {
      SplitAtColon(a[1..], b);
      assert (a + ":" + b)[1..] == a[1..] + ":" + b;
      assert [a[0]] + a[1..] == a;
    }
  }

  /** Splitting past a colon-free prefix and its colon leaves the prefix as
      the first part, followed by the parts of the rest. */
  lemma {:induction false} SplitPastColon(a: string, t: string)
    requires ':' !in a
    ensures SplitColon(a + ":" + t) == [a] + SplitColon(t)
  {
    if |a| == 0 {
      assert a + ":" + t == [':'] + t;
      assert ([':'] + t)[1..] == t;
    } else {
      SplitPastColon(a[1..], t);
      assert (a + ":" + t)[1..] == a[1..] + ":" + t;
      assert [a[0]] + a[1..] == a;
    }
  }

  /** `hhmm_to_min`: "H:M" with exactly one colon, each side an integer; the
      value is hours * 60 + minutes with no range check on either part. */
  function HhmmToMin(s: string): (r: Result<int, TimeError>)
    ensures |SplitColon(s)| != 2 ==> r == Err(InvalidTimeFormat)
    ensures r.Ok? <==>
      (|SplitColon(s)| == 2 && ParseInt(SplitColon(s)[0]).Some? && ParseInt(SplitColon(s)[1]).Some?)
    ensures r.Ok? ==>
      r.value == ParseInt(SplitColon(s)[0]).value * MinutesPerHour + ParseInt(SplitColon(s)[1]).value
  {
    var parts := SplitColon(s);
    if |parts| != 2 then Err(InvalidTimeFormat)
    else
      match (ParseInt(parts[0]), ParseInt(parts[1]))
      case (Some(h), Some(m)) => Ok(h * MinutesPerHour + m)
      case _ => Err(InvalidTimeFormat)
  }

  /** The parse law for every input: text without a colon, or with more than
      one, is rejected; "a:b" is accepted exactly when both sides are integers,
      and then gives a * 60 + b. */
  lemma HhmmParseLaw(s: string, a: string, b: string, t: string)
    requires ':' !in a && ':' !in b
    ensures ':' !in s ==> HhmmToMin(s) == Err(InvalidTimeFormat)
    ensures HhmmToMin(a + ":" + b + ":" + t) == Err(InvalidTimeFormat)
    ensures HhmmToMin(a + ":" + b).Ok? <==> ParseInt(a).Some? && ParseInt(b).Some?
    ensures ParseInt(a).Some? && ParseInt(b).Some? ==>
      HhmmToMin(a + ":" + b) == Ok(ParseInt(a).value * MinutesPerHour + ParseInt(b).value)
  {
    if ':' !in s {
      SplitColonFree(s);
    }
    SplitAtColon(a, b);
    SplitPastColon(a, b + ":" + t);
    SplitPastColon(b, t);
    assert a + ":" + b + ":" + t == a + ":" + (b + ":" + t);
  }

  /** `min_to_hhmm`: floor hours and the minute remainder, each padded to two
      places. Negative input is NOT clamped: -1 becomes "-1:59". */
  function MinToHhmm(m: int): (s: string)
    ensures HhmmToMin(s) == Ok(m)
  {
    var h := Pad2(m / MinutesPerHour);
    var mm := Pad2(m % MinutesPerHour);
    SplitAtColon(h, mm);
    ParsePad2(m / MinutesPerHour);
    ParsePad2(m % MinutesPerHour);
    h + ":" + mm
  }

  /** Negative minutes are printed with floor hours, not clamped to zero. */
  lemma NegativeMinutesNotClamped()
    ensures MinToHhmm(-1) == "-1:59"
    ensures MinToHhmm(-61) == "-2:59"
  {
    assert NatToDigits(1) == "1";
    assert NatToDigits(2) == "2";
    assert NatToDigits(59) == "59" by {
      assert NatToDigits(5) == "5";
    }
  }

  /** For non-negative minutes the hour part is the hour count in digits,
      zero-padded to at least two places. */
  lemma HourPartIsPadded(m: int)
    ensures m >= 0 ==>
      var s := MinToHhmm(m);
      |s| >= 5 && s[|s| - 3] == ':' && AllDigits(s[..|s| - 3])
      && DigitsToNat(s[..|s| - 3]) == m / MinutesPerHour
  {
    if m >= 0 {
      var x := m / MinutesPerHour;
      var h := Pad2(x);
      var r := m % MinutesPerHour;
      var mm := Pad2(r);
      assert |mm| == 2 by {
        if r >= 10 {
          assert NatToDigits(r) == NatToDigits(r / 10) + [DigitChar(r % 10)];
        }
      }
      var s := h + ":" + mm;
      assert s[..|s| - 3] == h;
      DigitsRoundTrip(x);
      if x < 10 {
        assert h == [DigitChar(0), DigitChar(x)];
        assert h[..1] == [DigitChar(0)];
      }
    }
  }

  /** Both parts are zero-padded: shift A's start prints as "09:45". */
  lemma PrintedExamples()
    ensures MinToHhmm(585) == "09:45"
    ensures MinToHhmm(0) == "00:00"
  {
    assert NatToDigits(9) == "9";
    assert NatToDigits(45) == "45" by {
      assert NatToDigits(4) == "4";
    }
    assert NatToDigits(0) == "0";
  }

  /** The minute part of the printed form is always two digits in 00..59. */
  lemma MinutePartIsTwoDigits(m: int)
    ensures var s := MinToHhmm(m);
      |s| >= 5 && s[|s| - 3] == ':' && AllDigits(s[|s| - 2..])
      && DigitsToNat(s[|s| - 2..]) < 60
  {
    var h := Pad2(m / MinutesPerHour);
    var r := m % MinutesPerHour;
    var mm := Pad2(r);
    var s := h + ":" + mm;
    assert |mm| == 2 && AllDigits(mm) && DigitsToNat(mm) == r by {
      ParsePad2(r);
      if r >= 10 {
        assert mm == NatToDigits(r);
        assert NatToDigits(r) == NatToDigits(r / 10) + [DigitChar(r % 10)];
      } else {
        assert mm == [DigitChar(0), DigitChar(r)];
      }
    }
    assert s[|s| - 2..] == mm;
  }
}

=== FILE: weeks.dfy ===
/** `get_week_for_today_strict`: which of the user's weeks the clock works in.
    Weeks are given by their start day numbers, in the order the query lists
    them (start date ascending); a week covers its start day and the six after. */
module Weeks {
  import opened Wrappers

  predicate Covers(start: int, today: int) {
    start <= today <= start + 6
  }

  predicate SomeWeekCovers(weeks: seq<int>, today: int) {
    exists i :: 0 <= i < |weeks| && Covers(weeks[i], today)
  }

  predicate SomeWeekStarted(weeks: seq<int>, today: int) {
    exists i :: 0 <= i < |weeks| && weeks[i] <= today
  }

  /** The index of the week to use: the first week covering today; failing
      that, the latest week already started (the last listed among equal
      starts, as a stable sort leaves them); failing that, the first week. */
  method WeekForToday(weeks: seq<int>, today: int) returns (r: Option<nat>)
    ensures r.None? <==> |weeks| == 0
    ensures r.Some? ==> r.value < |weeks|
    ensures SomeWeekCovers(weeks, today) ==>
      && r.Some? && Covers(weeks[r.value], today)
      && forall j :: 0 <= j < r.value ==> !Covers(weeks[j], today)
    ensures !SomeWeekCovers(weeks, today) && SomeWeekStarted(weeks, today) ==>
      && r.Some? && weeks[r.value] <= today
      && (forall j :: 0 <= j < |weeks| && weeks[j] <= today ==> weeks[j] <= weeks[r.value])
      && (forall j :: r.value < j < |weeks| && weeks[j] <= today ==> weeks[j] < weeks[r.value])
    ensures !SomeWeekCovers(weeks, today) && !SomeWeekStarted(weeks, today) && |weeks| > 0 ==>
      r == Some(0)
  {
    if |weeks| == 0 {
      return None;
    }
    // 1) the week that contains today
    var i := 0;
    while i < |weeks|
      invariant 0 <= i <= |weeks|
      invariant forall j :: 0 <= j < i ==> !Covers(weeks[j], today)
    {
      if Covers(weeks[i], today) {
        return Some(i);
      }
      i := i + 1;
    }
    // 2) the latest week that started in the past
    var best: Option<nat> := None;
    var k := 0;
    while k < |weeks|
      invariant 0 <= k <= |weeks|
      invariant best.None? ==> forall j :: 0 <= j < k ==> weeks[j] > today
      invariant best.Some? ==> best.value < k && weeks[best.value] <= today
      invariant best.Some? ==> forall j :: 0 <= j < k && weeks[j] <= today ==> weeks[j] <= weeks[best.value]
      invariant best.Some? ==> forall j :: best.value < j < k && weeks[j] <= today ==> weeks[j] < weeks[best.value]
    {
      if weeks[k] <= today && (best.None? || weeks[k] >= weeks[best.value]) {
        best := Some(k);
      }
      k := k + 1;
    }
    if best.Some? {
      return best;
    }
    // 3) every week lies in the future: the earliest listed
    return Some(0);
  }
}

=== FILE: wrappers.dfy ===
/** Failure-compatible wrappers used throughout the model: `Option` for a value
    that may be missing (an absent punch, no roster row), `Result` for an
    operation that can reject its input. */
module Wrappers {

  datatype Option<+T> = None | Some(value: T)

  datatype Result<+T, +E> = Ok(value: T) | Err(error: E)
}
